=== FILE: README.md ===
# TalentJobMatch retrieval and ranking core, in Dafny

TalentJobMatch ranks candidate CVs against a job description. This project models the
deterministic logic wrapped around its external services:

- query-variant parsing with a fallback;
- hybrid merging of vector and keyword results by first-seen content;
- the combined search pipeline;
- the older query expander;
- BM25 tokenisation and top-k selection;
- both cross-encoder rerankers;
- the weighted 0–100 scorer;
- the conversion of search results into candidate cards;
- the batch audit and the per-candidate explainer;
- the pydantic field constraints of the API models;
- the performance-metrics store.

Every language-model call, the Chroma vector store, the BM25 scoring library and the
cross-encoder are parameters of the model. They appear either as functions (`parse`,
`vectorSearch`, `keywordSearch`, `getScores`, `predict`, `explain`) or as input values
(the generator's text, the audit's batch answer). Python `float` is modelled as `real`.
A Python exception is an `Err` of `Results.Result`.

Modules, one per source file plus shared helpers:

| module | models |
|---|---|
| `Results` | `Option` and `Result` |
| `PySlice` | `xs[:n]`, including negative `n`, and `zip` |
| `Text` | `str.lower` on ASCII, `strip`, `split(sep)`, `split()`, `join`, substring `in`, `str(int)` |
| `StableSort` | `sorted(..., reverse=True)`, as a stable insertion sort |
| `Dedupe` | the `seen`-set loop, keeping the first element of each key |
| `Values` | loosely typed metadata values, `dict.get`, `str()`, `float()` and pydantic's field coercions |
| `Models` | `app/models.py` |
| `Search` | `app/search.py` |
| `QueryExpansion` | `app/query_expansion.py` |
| `Bm25` | `app/bm25_index.py` |
| `Reranker` | `app/reranker.py` |
| `RefinerReranker` | `app/refiner/reranker.py` |
| `Scorer` | `app/refiner/scorer.py` |
| `SearchAdapter` | `app/search_adapter.py` |
| `Evaluator` | `app/refiner/evaluator.py` |
| `Explainer` | `app/refiner/explainer.py` |
| `PerformanceMonitor` | `app/performance_monitor.py` |

`hybrid_search`'s docstring (app/search.py:79) promises Reciprocal Rank Fusion. The code
concatenates the vector results before the keyword results and keeps the first document of
each content; the model follows the code.

`hybrid_search` calls the vector retriever twice with the same query. It builds the BM25
retriever over the first call's results and merges the second call's results. The model
treats the vector store as a function, so both calls return the same documents. Under that
assumption the keyword results can only repeat vector contents (`Search.KeywordAddsNothing`).

## Model

| member | source | states |
|---|---|---|
| `PySlice.Take` | app/search.py:71 | `xs[:n]` is a prefix of `xs`; its length is `min(n, len)` for `n >= 0` and `len + n` (at least 0) for negative `n` |
| `PySlice.Zip` | app/bm25_index.py:26 | `zip` pairs elements position by position, up to the shorter input |
| `Text.Lower` | app/bm25_index.py:13 | lower-casing keeps the length, maps each character on its own and leaves no ASCII capital |
| `Text.Strip` | app/search.py:66 | the stripped string has no whitespace at either end and is no longer than the input |
| `Text.StripSlice` | app/search.py:66 | the stripped string is a contiguous middle part of the input, with only whitespace cut away on either side |
| `Text.StripEmptyIff` | app/query_expansion.py:43 | a line strips to the empty string exactly when it is all whitespace |
| `Text.StripIdempotent` | app/query_expansion.py:41-43 | stripping twice is stripping once |
| `Text.SplitOn` | app/search.py:64 | `split("\n")` yields at least one piece, and no piece contains the separator |
| `Text.SplitOnJoin` | app/search.py:64 | the pieces joined with the separator give the input back |
| `Text.SplitJoin` | app/search.py:64 | splitting a join of separator-free parts gives the parts back |
| `Text.LastPiece` | app/search.py:66 | `q.split(":")[-1]`, the last piece of the split, contains no colon |
| `Text.LastPieceAfterLastSep` | app/search.py:66 | the last piece is the whole input when it has no separator, and otherwise exactly the text after the last separator |
| `Text.Words` | app/bm25_index.py:13 | `split()` yields non-empty tokens without whitespace |
| `Text.WordsKeepAllText` | app/bm25_index.py:13 | the tokens, concatenated, are the input with its whitespace removed |
| `Text.WordsJoin` | app/bm25_index.py:13 | `split()` cuts exactly at whitespace: non-empty whitespace-free words joined by spaces split back into the same words |
| `Text.NatToDecimal` | app/search_adapter.py:41 | `str(idx)` is decimal digits without a leading zero |
| `Text.DecimalRoundTrip` | app/search_adapter.py:41 | reading `str(idx)` back as a number gives `idx` |
| `StableSort.Sort` | app/refiner/scorer.py:34-38 | `sorted(..., reverse=True)` returns a permutation in descending key order; within each key value the input order is kept |
| `StableSort.SortOrderOnly` | app/refiner/scorer.py:34-38 | two key functions that order the elements the same way give the same sorted list |
| `StableSort.SortPrefixStable` | app/reranker.py:33-35 | the first `n` sorted elements keep input order within each key value |
| `StableSort.SortPrefixDominates` | app/reranker.py:33-35 | an element left out of the first `n` sorted ones scores no higher than any of them |
| `Dedupe.Dedupe` | app/search.py:102-117 | deduplication never lengthens the list; `Dedupe.DedupeFirstSeen` characterises it fully |
| `Dedupe.DedupeFirstSeen` | app/search.py:102-117 | the result has one element per key of the input, each the first occurrence of its key, ordered by first occurrence |
| `Dedupe.DedupeStep` | app/search.py:106-110 | one loop step keeps an element exactly when its key is not yet in `seen`, and adds the key to `seen` |
| `Dedupe.DedupeDistinct` | app/search.py:138-146 | a list whose keys are already distinct passes through unchanged |
| `Dedupe.DedupeIdempotent` | app/search.py:135-146 | deduplicating twice is deduplicating once |
| `Dedupe.FrontSourceFirst` | app/search.py:105-117 | entries whose key occurs in the first list come before every entry contributed only by the second list, and are the first list's own instances |
| `Dedupe.CoveredSuffixAddsNothing` | app/search.py:112-117 | appending a list whose keys all occur already changes nothing |
| `Values.Get` | app/search.py:122 | `meta.get(k, default)` returns the stored value when the key is present, else the default |
| `Values.AsStrList` | app/models.py:101-104 | a `List[str]` field accepts exactly lists of strings, keeping them in order |
| `Models.NewJobDescriptionRequest` | app/models.py:5-7 | a request is accepted exactly when its description has at least 20 characters |
| `Models.NewJobDescription` | app/models.py:10-24 | a job is accepted exactly when seniority is absent or one of junior/mid/senior/lead and department is absent or at most 100 characters; title and skills default to "Unknown" and [] |
| `Models.JobDescriptionDefaults` | app/models.py:12-24 | a job built from a description alone is titled "Unknown" and has no skills, seniority or department |
| `Models.SeniorityOutsidePatternRefused` | app/models.py:15-19 | any seniority outside the four allowed words is refused |
| `Models.ValidateCard` | app/models.py:96-99 | a card is accepted exactly when its score lies in [0, 1] |
| `Models.ValidateDeepDive` | app/models.py:118-126 | a deep dive is accepted exactly when faithfulness and relevancy both lie in [0, 1] |
| `Models.ValidateMatchResult` | app/models.py:151-157 | the later `MatchResult` is accepted exactly when its score is in [0, 1] and faithfulness is absent or in [0, 1] |
| `Search.ResolveJob` | app/search.py:22-29 | requests are parsed, structured jobs are used unchanged, and anything else raises `ValueError` |
| `Search.VariantOf` | app/search.py:66 | a variant contains no colon, has no surrounding whitespace, and has no newline when its line had none |
| `Search.VariantAfterLastColon` | app/search.py:66 | the variant of a line with a colon is the text after its last colon, stripped |
| `Search.ParseLines` | app/search.py:66 | every variant is colon-free and stripped, and there is none at all exactly when no line contains a colon (one per colon line, in order, by `Search.ParseOneLine` and `Search.ParseLinesAppend`) |
| `Search.ParseLinesAppend` | app/search.py:66 | parsing keeps line order: the variants of two blocks of lines are those of the first followed by those of the second |
| `Search.ParseOneLine` | app/search.py:66 | a single line yields its variant exactly when it contains a colon |
| `Search.ParseVariants` | app/search.py:64-66 | every parsed variant is free of colons and newlines and has no surrounding whitespace |
| `Search.NoVariantsIff` | app/search.py:64-68 | the generator's text yields no variant exactly when it contains no colon |
| `Search.MultiQueryVariants` | app/search.py:19-71 | unsupported input raises; there are at most `num_queries` variants; without any colon the only variant is the title plus the first five skills |
| `Search.VariantsFromColonLines` | app/search.py:64-71 | when some line has a colon, the result is the parsed variants cut to `num_queries` |
| `Search.ToHits` | app/search.py:119-123 | one hit per kept document, in order |
| `Search.AppendUnseen` | app/search.py:106-117 | the merge loop computes first-seen deduplication of everything scanned so far, with `seen` holding exactly the kept contents |
| `Search.HybridSearch` | app/search.py:102-123 | the two merge loops compute `Search.HybridHits`: the first `k_fetch` documents of the first-seen merge of vector then keyword results |
| `Search.HybridHits` | app/search.py:102-123 | at most `k_fetch` hits, with distinct contents; `initial_score` is metadata `relevance_score`, defaulting to 0.0 |
| `Search.HybridVectorFirst` | app/search.py:105-117 | vector documents come before documents found only by keyword search, and a duplicate keeps the vector instance |
| `Search.HybridCoverage` | app/search.py:102-117 | before truncation, every distinct content of either list appears exactly once |
| `Search.KeywordAddsNothing` | app/search.py:91-99 | when the keyword retriever returns only documents of the vector results it was built from, the merge equals the deduplicated vector results |
| `Search.ToResults` | app/search.py:142-146 | one result per hit, with `score` equal to its `initial_score` |
| `Search.DedupeHits` | app/search.py:135-148 | the second pass returns the first `k` first-seen hits: at most `k`, with distinct contents |
| `Search.SecondDedupeKeepsAll` | app/search.py:133-148 | the hybrid hits already have distinct contents, so the second pass keeps them all in order |
| `Search.CombinedSearchPipeline` | app/search.py:126-148 | the method, with its second deduplication loop, returns exactly `Search.Pipeline`'s result, and fails exactly for unsupported input or an empty vector result |
| `Search.Pipeline` | app/search.py:126-148 | fails exactly when the input is unsupported (`ValueError`) or the vector store returns no documents (building the keyword retriever at app/search.py:94 from an empty document list raises `ValueError` while unpacking it); otherwise the first `k` hybrid hits for the job's combined query, in hybrid order, each with `score` equal to its `initial_score`; at most `k` and at most 15, at least one when `k > 0`, with distinct contents |
| `QueryExpansion.GenerateMultiQueries` | app/query_expansion.py:33-46 | an unconfigured or failing generator gives exactly `{job_description}`; otherwise every query is non-empty, has no surrounding whitespace and no newline |
| `QueryExpansion.QueriesFromAnswer` | app/query_expansion.py:41-43 | the queries are exactly the non-empty stripped lines of the stripped answer (the comprehension's definition, unfolded into a membership test) |
| `QueryExpansion.QueriesOccurInAnswer` | app/query_expansion.py:40-43 | every query occurs verbatim in the generator's answer |
| `QueryExpansion.CleanAnswerRoundTrip` | app/query_expansion.py:41-43 | an answer written one clean query per line gives back exactly those queries |
| `Bm25.Tokenize` | app/bm25_index.py:13 | tokens are non-empty and contain no whitespace |
| `Bm25.TokensKeepText` | app/bm25_index.py:13 | tokenising loses only case and whitespace |
| `Bm25.TokenizeJoin` | app/bm25_index.py:13 | lower-case words joined by spaces tokenise back to exactly those words |
| `Bm25.NewIndex` | app/bm25_index.py:5-14 | an empty corpus raises `ZeroDivisionError` (from `BM25Okapi`); otherwise the index stores the corpus as given, with one token list per document |
| `Bm25.Search` | app/bm25_index.py:16-29 | at most `k` results (exactly `min(k, n)` for `k >= 0`), drawn from the (document, score) pairs, in descending score order, with equal scores in corpus order |
| `Bm25.SearchPairsPositions` | app/bm25_index.py:26 | each result pairs `corpus[j]` with `scores[j]` for the same `j` |
| `Bm25.SearchKeepsBest` | app/bm25_index.py:27-29 | a pair left out scores no higher than any returned pair |
| `Bm25.SearchAllWhenKLarge` | app/bm25_index.py:26-29 | with `k` at least the corpus size, every document appears exactly as often as in the corpus |
| `Reranker.Pairs` | app/reranker.py:23 | one `[query, content]` pair per candidate, in input order |
| `Reranker.Attach` | app/reranker.py:29-30 | each candidate's `rerank_score` is the model score at its own position |
| `Reranker.RerankCandidates` | app/reranker.py:7-35 | empty input gives []; too few model scores raise `IndexError`; otherwise `min(top_k, n)` candidates with their scores, sorted descending, ties in input order |
| `Reranker.RerankScoresByPosition` | app/reranker.py:29-33 | every returned candidate is an input candidate with the score at its own position |
| `Reranker.RerankKeepsBest` | app/reranker.py:33-35 | a candidate left out scores no higher than any returned candidate |
| `Reranker.DefaultReturnsThree` | app/reranker.py:7-35 | with the default `top_k` and at least three candidates, three come back |
| `RefinerReranker.Pairs` | app/refiner/reranker.py:14-20 | one (job description, skill names joined by single spaces) pair per candidate, in order |
| `RefinerReranker.RescoreAll` | app/refiner/reranker.py:24-28 | candidates with a model score get the normalised score and the matching reasoning; any past the last score are unchanged |
| `RefinerReranker.RerankCandidates` | app/refiner/reranker.py:6-32 | empty input gives []; otherwise all candidates, rescored, sorted by `match_score` descending, ties in input order |
| `RefinerReranker.ReasoningNamesScore` | app/refiner/reranker.py:26-28 | each candidate's reasoning is "Score computed by Cross-Encoder: " followed by its score, which is the normalised model score of some position |
| `RefinerReranker.RankedByModelScore` | app/refiner/reranker.py:26-30 | with a strictly increasing normaliser, a candidate ranked above another has at least as high a raw model score |
| `Scorer.Trunc` | app/refiner/scorer.py:26 | `int()` truncates toward zero |
| `Scorer.SkillsTerm` | app/refiner/scorer.py:17 | the skills term is `count / 5` below five skills and saturates at 1 |
| `Scorer.ExperienceTerm` | app/refiner/scorer.py:18 | the experience term is `years / 10` below ten years and saturates at 1 |
| `Scorer.MatchScore` | app/refiner/scorer.py:16-26 | with semantic score in [0, 1] and non-negative years the match score lies in [0, 100] |
| `Scorer.MoreSkillsNeverLower` | app/refiner/scorer.py:17-26 | more matched skills never lower the score |
| `Scorer.MoreYearsNeverLower` | app/refiner/scorer.py:18-26 | more years never lower the score |
| `Scorer.SaturatedTerms` | app/refiner/scorer.py:17-26 | from five skills and ten years on, the score is `int(50 * semantic + 50)` |
| `Scorer.ScoreAll` | app/refiner/scorer.py:15-32 | every candidate is scored, in order |
| `Scorer.CalculateMatchScores` | app/refiner/scorer.py:5-38 | empty input gives []; otherwise a permutation of the scored candidates, each carrying the score of its own fields, sorted descending with ties in input order |
| `Scorer.ScoresInRange` | app/refiner/scorer.py:16-26 | with valid inputs every returned score is in [0, 100] |
| `SearchAdapter.SkillsValue` | app/search_adapter.py:30-32 | skills come from `skills` unless that key is absent or None, else from `top_skills`, defaulting to [] |
| `SearchAdapter.CandidateId` | app/search_adapter.py:35-41 | the id is the metadata `candidate_id` when it is a string, its decimal text when it is an int, and the decimal position when absent |
| `SearchAdapter.ToCard` | app/search_adapter.py:22-54 | a card is built exactly when every field has its type and the score `float()` reads lies in [0, 1]; then each field is its metadata value or its default, the id and skills as above, the score as `float()` reads it, and the reasoning empty |
| `SearchAdapter.DefaultCard` | app/search_adapter.py:35-51 | empty metadata gives name "Unknown", years 0, title "Unknown", company "", seniority "Unknown", location "" |
| `SearchAdapter.ToCards` | app/search_adapter.py:20-56 | the loop succeeds exactly when every result's card does, and then gives one card per result, in order |
| `SearchAdapter.CardsValid` | app/search_adapter.py:39-54 | every card produced has a score in [0, 1] and empty reasoning |
| `SearchAdapter.SearchPipelineToCandidates` | app/search_adapter.py:11-56 | succeeds exactly when the `k=15` pipeline succeeds and every card of its results builds, and then returns those cards, one per result in order; a pipeline failure (unsupported input, no vector results) is passed on unchanged |
| `Evaluator.CandidatesBlockAppend` | app/refiner/evaluator.py:29-38 | the block of a concatenation is the concatenation of the blocks, so entries appear in candidate order |
| `Evaluator.CandidatesBlockHasEntry` | app/refiner/evaluator.py:31-38 | every candidate's `CANDIDATE_ID/Name/Skills/---` entry occurs in the block |
| `Evaluator.EvalLookupLastWins` | app/refiner/evaluator.py:95-98 | the lookup's keys are the stripped ids; a key's evaluation is the last one given for it |
| `Evaluator.IdentifiedSkills` | app/refiner/evaluator.py:110-116 | one identified skill per listed skill, in order, with the given evidence |
| `Evaluator.DeepDive` | app/refiner/evaluator.py:110-155 | the deep dive keeps the candidate's id, the evaluation's summary and both scores, identifies each matched skill in order with evidence "Found in resume", and is trustworthy exactly when faithfulness ≥ 0.75 and relevancy ≥ 0.70 |
| `Evaluator.Ideal` | app/refiner/evaluator.py:101-107 | there is at most one deep dive per candidate |
| `Evaluator.IdealSound` | app/refiner/evaluator.py:101-107 | only candidates whose stripped id has an evaluation appear, each with that evaluation's deep dive |
| `Evaluator.IdealAppend` | app/refiner/evaluator.py:101-107 | deep dives follow candidate order |
| `Evaluator.IdealComplete` | app/refiner/evaluator.py:101-107 | every candidate with an evaluation gets its deep dive |
| `Evaluator.BuildDivesSound` | app/refiner/evaluator.py:101-160 | the loop returns a prefix of the ideal result, every entry valid: a failed validation ends it with what was built |
| `Evaluator.BuildDivesComplete` | app/refiner/evaluator.py:101-155 | when every evaluation's scores lie in [0, 1], the whole ideal result comes back |
| `Evaluator.BuildDivesStops` | app/refiner/evaluator.py:101-160 | the loop ends early only at a deep dive that fails validation |
| `Evaluator.EvaluateBatch` | app/refiner/evaluator.py:17-160 | no candidates or a failed model call give []; otherwise a valid prefix of the ideal result that stops short only at a deep dive failing validation, and the whole ideal result when every score lies in [0, 1] |
| `Evaluator.AsWrittenIgnoresRequirements` | app/refiner/evaluator.py:119-153 | as written, the requirement list has no effect on the result |
| `Evaluator.CompareRequirement` | app/refiner/evaluator.py:123-133 | status is met exactly when the lowered requirement occurs in some lowered skill; the evidence text follows the status |
| `Evaluator.RequirementsComparison` | app/refiner/evaluator.py:119-133 | one comparison per requirement, in order; a requirement is met iff its lower-cased text occurs inside some lower-cased skill |
| `Evaluator.SkillContainingRequirementMeets` | app/refiner/evaluator.py:125 | a requirement written inside a skill name, in any ASCII case, is met |
| `Evaluator.BuildAudited` | app/refiner/evaluator.py:101-155 | the corrected loop returns the same deep dives as the one as written |
| `Evaluator.AuditBatch` | app/refiner/evaluator.py:17-160 | the corrected audit returns the as-written deep dives, each with its requirement comparison |
| `Evaluator.AuditedReportsRequirements` | app/refiner/evaluator.py:119-153 | each corrected entry compares every requirement against the skills of the candidate it describes |
| `Explainer.CompareRequirement` | app/refiner/explainer.py:82-97 | status is met exactly when the lowered requirement equals some lowered skill; the evidence text follows the status |
| `Explainer.RequirementsComparison` | app/refiner/explainer.py:80-97 | one comparison per requirement, in order; a requirement is met iff it equals some skill after lower-casing both |
| `Explainer.ExactMetImpliesSubstringMet` | app/refiner/explainer.py:76-89 | whatever the explainer reports met, the batch audit reports met too |
| `Explainer.SubstringNotExact` | app/refiner/explainer.py:84 | the converse fails: "sql" against the skill "postgresql" is met for the audit and not met here |
| `Explainer.GenerateExplanations` | app/refiner/explainer.py:28-117 | the call fails exactly when some model call fails; otherwise one deep dive per candidate, in order, summarising with the generated text, with both scores 0.0 and never trustworthy |
| `Explainer.IdentifiedSkillsListed` | app/refiner/explainer.py:67-73 | each deep dive identifies exactly its candidate's skills with the fixed evidence |
| `Explainer.GenerateAuditedExplanations` | app/refiner/explainer.py:76-104 | the corrected explainer returns the as-written deep dives, each with its requirement comparison |
| `Explainer.AsWrittenDropsComparison` | app/refiner/explainer.py:100-104 | as written, the requirement list changes nothing beyond the prompt |
| `PerformanceMonitor.New` | app/performance_monitor.py:31-32 | a new monitor has no metrics |
| `PerformanceMonitor.RecordMetric` | app/performance_monitor.py:34-38 | recording appends one entry to that name's list, creating it if absent; every other name is unchanged |
| `PerformanceMonitor.AverageMetric` | app/performance_monitor.py:40-45 | an unknown or empty metric averages 0.0; otherwise average times count is the sum |
| `PerformanceMonitor.SumOfEqualValues` | app/performance_monitor.py:44-45 | `n` equal values sum to `n` times the value |
| `PerformanceMonitor.EqualValuesAverage` | app/performance_monitor.py:40-45 | a metric whose values are all equal averages to that value |
| `PerformanceMonitor.RecordAddsToSum` | app/performance_monitor.py:34-45 | recording adds the value to the sum and one to the count |
| `PerformanceMonitor.FirstRecordAverage` | app/performance_monitor.py:34-45 | one recording into a fresh monitor averages to the recorded value |
| `PerformanceMonitor.RecordKeepsOtherAverages` | app/performance_monitor.py:34-45 | recording under one name leaves every other name's average unchanged |

## Left out

- Language-model calls are parameters or inputs: the multi-query generator, the job parser, the query expander's chain, the batch auditor and the explainer. So are their prompt texts, including the `jd_text` block at app/search.py:32-37.
- The Chroma vector store, its embeddings and the BM25 retriever of `hybrid_search` are parameters.
- BM25 scoring in `rank_bm25` is a parameter.
- The cross-encoders and numpy's sigmoid are parameters.
- Floating point is modelled as exact reals. IEEE rounding of `final_score * 100` and of the averages is not modelled.
- Python's float-to-text rendering is the parameter `render`. The `.2f` reasoning strings of the scorer are a record of the three terms instead.
- `Text.Lower`: lower-cases ASCII letters only, where Python's `str.lower` covers all of Unicode.
- `Text.IsSpace`: covers Python's whitespace in the Latin-1 range only.
- `Values.AsInt`: pydantic's lax mode also accepts numeric strings for `int` fields; the model refuses them.
- `Values.PyStr`: Python's text of floats and lists is the parameter `render`.
- `Dedupe.Dedupe`: its own contract gives only the length bound. The full first-seen characterisation is in `Dedupe.DedupeFirstSeen`, kept apart so that proofs using the function stay cheap.
- `Evaluator.Ideal`: its own contract gives only the length bound. Membership and order are in `Evaluator.IdealSound`, `Evaluator.IdealComplete` and `Evaluator.IdealAppend`.
- `Reranker.RerankCandidates`: states that the result is drawn from the scored candidates, sorted and stable. That it is the top of the sort is stated separately, by `Reranker.RerankKeepsBest`.
- `Bm25.Search`: states that the result is drawn from the pairs, sorted and stable. That it is the top of the sort is stated separately, by `Bm25.SearchKeepsBest`.
- `QueryExpansion.GenerateMultiQueries` returns a set, because `list(set(...))` has no specified order.
- The scorer reads `semantic_score`, `matching_skills` and `match_score`, which `CandidateCard` does not declare, so it works over its own record.
- The refiner reranker reads `skill.name`, so it also works over its own record, whose `candidateId` stands for the untouched fields.
- The `content=` argument that app/search_adapter.py:52 passes to `CandidateCard` is dropped, as pydantic drops undeclared fields.
- app/refiner/evaluator.py:11 imports `BatchEvaluationResponse`, which app/models.py does not define. The function body is modelled with the batch answer as an input.
- The sample-data block at app/refiner/reranker.py:37-88 follows the `return` and never runs.
- The timing decorators and `print_report` (app/performance_monitor.py:6-26, 47-54) are console I/O.
- The debug prints of app/search_adapter.py:26-27 are console I/O.
- The evaluator's and the explainer's prints are console I/O.
- The first `MatchResult` declaration (app/models.py:65-76) is shadowed by the second and has no effect.
- `RankingResponse`, `CandidateAnalysisResponse` and `CandidateMetadata` carry no constraints.
- Python mutates the candidate dictionaries and cards in place. The model returns updated copies instead.

## Findings

| source | as written | input that shows it | evidently intended | confidence | as-written member | corrected member |
|---|---|---|---|---|---|---|
| app/refiner/evaluator.py:119-153 | the requirement comparison is passed as `requirements_comparison=` to `CandidateDeepDive`, which declares no such field (app/models.py:113-130); pydantic ignores undeclared fields, so the comparison is computed and then discarded | job requirements `["python"]` and a candidate with skill "Python" and an evaluation: the returned deep dive says nothing about the requirement, and `["java"]` gives an identical result | each audited deep dive carries one requirement entry per job requirement | high, not executed | `Evaluator.AsWrittenIgnoresRequirements` | `Evaluator.AuditBatch` |
| app/refiner/explainer.py:100-104 | `requirements_comparison=` is passed to `ExplainabilityAnalysis`, which declares no such field (app/models.py:41-61), so the exact-match comparison is dropped | any candidate list with a non-empty requirement list: the deep dives equal those for any other requirement list with the same generated texts | each explanation carries its requirement comparison | high, not executed | `Explainer.AsWrittenDropsComparison` | `Explainer.GenerateAuditedExplanations` |

=== FILE: adapter.dfy ===
/** `app/search_adapter.py`: search results turned into candidate cards. Each card is built
    from loosely typed metadata with fixed defaults, and pydantic validates it on
    construction. */
module SearchAdapter {
  import opened Results
  import opened Values
  import opened Models
  import Text
  import Search
  import Lists

  /** `skills = meta.get("skills")`, falling back to `meta.get("top_skills", [])` when that
      is `None`. */
  function SkillsValue(meta: Metadata): (v: Value)
    ensures "skills" in meta && !meta["skills"].VNone? ==> v == meta["skills"]
    ensures ("skills" !in meta || meta["skills"].VNone?) ==> v == Get(meta, "top_skills", VList([]))
  {
    var skills := Get(meta, "skills", VNone);
    if skills.VNone? then Get(meta, "top_skills", VList([])) else skills
  }

  /** `str(meta.get("candidate_id", idx))`. */
  function CandidateId(meta: Metadata, idx: nat, render: Value -> string): (id: string)
    ensures "candidate_id" !in meta ==> id == Text.NatToDecimal(idx)
    ensures "candidate_id" in meta && meta["candidate_id"].VStr? ==> id == meta["candidate_id"].s
    ensures "candidate_id" in meta && meta["candidate_id"].VInt? ==> id == Text.IntToDecimal(meta["candidate_id"].i)
  {
    PyStr(Get(meta, "candidate_id", VInt(idx)), render)
  }

  /** The card for the `idx`-th result. A field of the wrong type, a score `float()` cannot
      read or a score outside [0, 1] raises. */
  function ToCard(res: Search.SearchResult, idx: nat, render: Value -> string, parseFloat: string -> Option<real>)
    : (r: Result<CandidateCard>)
    ensures r.Ok? ==> ValidCard(r.value) && r.value.aiReasoningShort == ""
    ensures r.Ok? ==> r.value.candidateId == CandidateId(res.metadata, idx, render)
    ensures r.Ok? ==> PyFloat(res.score, parseFloat) == Ok(r.value.score)
    ensures r.Ok? ==> SkillsValue(res.metadata) == VList(seq(|r.value.skillsMatch|, i requires 0 <= i < |r.value.skillsMatch| => VStr(r.value.skillsMatch[i])))
    ensures r.Ok? ==> Get(res.metadata, "name", VStr("Unknown")) == VStr(r.value.name)
    ensures r.Ok? ==> Get(res.metadata, "title", VStr("Unknown")) == VStr(r.value.currentTitle)
    ensures r.Ok? ==> Get(res.metadata, "company", VStr("")) == VStr(r.value.company)
    ensures r.Ok? ==> Get(res.metadata, "seniority", VStr("Unknown")) == VStr(r.value.seniorityLevel)
    ensures r.Ok? ==> AsInt(Get(res.metadata, "years_experience", VInt(0))) == Ok(r.value.yearsExperience)
    ensures r.Ok? ==> AsOptStr(Get(res.metadata, "avatar_url", VNone)) == Ok(r.value.avatarUrl)
    ensures r.Ok? ==> AsOptStr(Get(res.metadata, "location", VStr(""))) == Ok(r.value.location)
    ensures r.Ok? <==>
      && Get(res.metadata, "name", VStr("Unknown")).VStr?
      && Get(res.metadata, "title", VStr("Unknown")).VStr?
      && Get(res.metadata, "company", VStr("")).VStr?
      && Get(res.metadata, "seniority", VStr("Unknown")).VStr?
      && AsInt(Get(res.metadata, "years_experience", VInt(0))).Ok?
      && AsOptStr(Get(res.metadata, "avatar_url", VNone)).Ok?
      && AsOptStr(Get(res.metadata, "location", VStr(""))).Ok?
      && AsStrList(SkillsValue(res.metadata)).Ok?
      && PyFloat(res.score, parseFloat).Ok? && UnitInterval(PyFloat(res.score, parseFloat).value)
  {
    var meta := res.metadata;
    var id := CandidateId(meta, idx, render);
    match (AsStr(Get(meta, "name", VStr("Unknown"))), AsOptStr(Get(meta, "avatar_url", VNone)),
           AsStr(Get(meta, "title", VStr("Unknown"))), AsStr(Get(meta, "company", VStr(""))))
    case (Ok(name), Ok(avatar), Ok(title), Ok(company)) =>
      (match (AsInt(Get(meta, "years_experience", VInt(0))), AsStr(Get(meta, "seniority", VStr("Unknown"))),
              AsOptStr(Get(meta, "location", VStr(""))), PyFloat(res.score, parseFloat), AsStrList(SkillsValue(meta)))
       case (Ok(years), Ok(seniority), Ok(location), Ok(score), Ok(skills)) =>
         ValidateCard(CandidateCard(id, name, avatar, title, company, years, seniority, location, score, skills, ""))
       case _ => Err("ValidationError: invalid candidate field"))
    case _ => Err("ValidationError: invalid candidate field")
  }

  /** With no metadata at all, a result whose score is a float in [0, 1] becomes the card of
      documented defaults. */
  lemma DefaultCard(content: string, score: real, idx: nat, render: Value -> string, parseFloat: string -> Option<real>)
    requires 0.0 <= score <= 1.0
    ensures ToCard(Search.SearchResult(content, map[], VReal(score)), idx, render, parseFloat)
      == Ok(CandidateCard(Text.NatToDecimal(idx), "Unknown", None, "Unknown", "", 0, "Unknown", Some(""), score, [], ""))
  {
    var meta: Metadata := map[];
    assert SkillsValue(meta) == VList([]);
    assert AsStrList(VList([])) == Ok([]);
    assert CandidateId(meta, idx, render) == Text.NatToDecimal(idx);
  }

  /** The conversion loop; the first result that raises ends the whole call with the error.
      Otherwise there is one card per result, in order. */
  function ToCards(results: seq<Search.SearchResult>, start: nat, render: Value -> string, parseFloat: string -> Option<real>)
    : (r: Result<seq<CandidateCard>>)
    ensures r.Ok? <==> forall i :: 0 <= i < |results| ==> ToCard(results[i], start + i, render, parseFloat).Ok?
    ensures r.Ok? ==> |r.value| == |results|
    ensures r.Ok? ==> forall i :: 0 <= i < |results| ==> r.value[i] == ToCard(results[i], start + i, render, parseFloat).value
  {
    var f := (res: Search.SearchResult, idx: nat) => ToCard(res, idx, render, parseFloat);
    Lists.TryMapElementwise(results, start, f);
    Lists.TryMap(results, start, f)
  }

  /** Every card produced satisfies the card model's constraints and carries no reasoning. */
  lemma CardsValid(results: seq<Search.SearchResult>, render: Value -> string, parseFloat: string -> Option<real>)
    requires ToCards(results, 0, render, parseFloat).Ok?
    ensures |ToCards(results, 0, render, parseFloat).value| == |results|
    ensures forall i :: 0 <= i < |results| ==>
      ValidCard(ToCards(results, 0, render, parseFloat).value[i]) && ToCards(results, 0, render, parseFloat).value[i].aiReasoningShort == ""
  {
  }

  const PipelineK: int := 15

  /** `search_pipeline_to_candidates(job)`: the combined search with `k=15`, then one card per
      result, in order. */
  method SearchPipelineToCandidates(
    job: Search.JobInput,
    parse: JobDescriptionRequest -> JobDescription,
    generated: string,
    vectorSearch: (string, int) -> seq<Search.Document>,
    keywordSearch: (seq<Search.Document>, string, int) -> seq<Search.Document>,
    render: Value -> string,
    parseFloat: string -> Option<real>)
    returns (r: Result<seq<CandidateCard>>)
    ensures r.Ok? <==> (Search.Pipeline(job, PipelineK, parse, generated, vectorSearch, keywordSearch).Ok?
                        && ToCards(Search.Pipeline(job, PipelineK, parse, generated, vectorSearch, keywordSearch).value, 0, render, parseFloat).Ok?)
    ensures Search.Pipeline(job, PipelineK, parse, generated, vectorSearch, keywordSearch).Err? ==>
      r == Err(Search.Pipeline(job, PipelineK, parse, generated, vectorSearch, keywordSearch).error)
    ensures r.Ok? ==> r == ToCards(Search.Pipeline(job, PipelineK, parse, generated, vectorSearch, keywordSearch).value, 0, render, parseFloat)
    ensures job.Unsupported? || Search.EmptyCorpus(job, parse, generated, vectorSearch) ==> r.Err?
    ensures r.Ok? ==> |r.value| <= PipelineK
    ensures r.Ok? ==> forall i :: 0 <= i < |r.value| ==> ValidCard(r.value[i]) && r.value[i].aiReasoningShort == ""
  {
    var results := Search.CombinedSearchPipeline(job, PipelineK, parse, generated, vectorSearch, keywordSearch);
    if results.Err? {
      return Err(results.error);
    }
    r := ToCards(results.value, 0, render, parseFloat);
    if r.Ok? {
      CardsValid(results.value, render, parseFloat);
    }
  }
}

=== FILE: bm25.dfy ===
/** `app/bm25_index.py`: the keyword index. BM25 scoring itself belongs to the `rank_bm25`
    library and is a parameter; tokenisation and top-k selection are modelled. */
module Bm25 {
  import opened Results
  import Text
  import PySlice
  import StableSort

  /** `doc.lower().split()`. */
  function Tokenize(s: string): (ts: seq<string>)
    ensures forall i :: 0 <= i < |ts| ==> |ts[i]| > 0 && Text.NoSpace(ts[i])
  {
    Text.Words(Text.Lower(s))
  }

  /** Tokenising loses only case and whitespace: the tokens, concatenated, are the
      lower-cased text with its whitespace removed. */
  lemma TokensKeepText(s: string)
    ensures Text.Concat(Tokenize(s)) == Text.Squeeze(Text.Lower(s))
  {
    Text.WordsKeepAllText(Text.Lower(s));
  }

  /** The tokens are exactly the whitespace-separated words: lower-case, non-empty,
      whitespace-free words joined by single spaces tokenise back to themselves. */
  lemma TokenizeJoin(ws: seq<string>)
    requires forall i :: 0 <= i < |ws| ==> |ws[i]| > 0 && Text.NoSpace(ws[i]) && Text.Lower(ws[i]) == ws[i]
    ensures Tokenize(Text.Join(ws, " ")) == ws
  {
    Text.LowerJoin(ws);
    Text.WordsJoin(ws);
  }

  /** A `BM25Index`: the corpus as given and its tokenisation. */
  datatype Index = Index(corpus: seq<string>, tokenized: seq<seq<string>>)

  /** The message of the `ZeroDivisionError` that `BM25Okapi` raises for an empty corpus: its
      average document length divides the total length by the number of documents. */
  const DivisionByZero: string := "division by zero"

  /** `BM25Index(corpus)`. `BM25Okapi` raises `ZeroDivisionError` on an empty corpus. */
  function NewIndex(corpus: seq<string>): (r: Result<Index>)
    ensures r.Ok? <==> |corpus| > 0
    ensures r.Err? ==> r.error == DivisionByZero
    ensures r.Ok? ==> r.value.corpus == corpus && |r.value.tokenized| == |corpus|
    ensures r.Ok? ==> forall i :: 0 <= i < |corpus| ==> r.value.tokenized[i] == Tokenize(corpus[i])
  {
    if |corpus| == 0 then Err(DivisionByZero)
    else Ok(Index(corpus, seq(|corpus|, i requires 0 <= i < |corpus| => Tokenize(corpus[i]))))
  }

  const DefaultK: int := 5

  function Score(p: (string, real)): real { p.1 }

  /** `search(query, k)`. The library's `get_scores` over the tokenised query is `getScores`;
      Python's `zip` pairs documents with scores up to the shorter of the two. */
  function Search(idx: Index, query: string, getScores: seq<string> -> seq<real>, k: int): (r: seq<(string, real)>)
    ensures var pairs := PySlice.Zip(idx.corpus, getScores(Tokenize(query)));
      && |r| <= |pairs|
      && (k >= 0 ==> |r| == PySlice.Min(k, |pairs|))
      && multiset(r) <= multiset(pairs)
      && StableSort.SortedDesc(r, Score)
      && StableSort.StablePrefix(pairs, r, Score)
  {
    var pairs := PySlice.Zip(idx.corpus, getScores(Tokenize(query)));
    var sorted := StableSort.Sort(pairs, Score);
    var r := PySlice.Take(sorted, k);
    StableSort.SortPrefixStable(pairs, |r|, Score);
    PrefixMultiset(sorted, |r|);
    r
  }

  lemma {:induction false} PrefixMultiset<T>(xs: seq<T>, n: nat)
    requires n <= |xs|
    ensures multiset(xs[..n]) <= multiset(xs)
  {
    assert xs == xs[..n] + xs[n..];
  }

  /** Each result pairs a document with the score at its own position. */
  lemma {:induction false} SearchPairsPositions(idx: Index, query: string, getScores: seq<string> -> seq<real>, k: int, i: int)
    requires 0 <= i < |Search(idx, query, getScores, k)|
    ensures var scores := getScores(Tokenize(query));
      exists j :: 0 <= j < |idx.corpus| && j < |scores| && Search(idx, query, getScores, k)[i] == (idx.corpus[j], scores[j])
  {
    var pairs := PySlice.Zip(idx.corpus, getScores(Tokenize(query)));
    var r := Search(idx, query, getScores, k);
    assert r[i] in multiset(pairs);
    var j :| 0 <= j < |pairs| && pairs[j] == r[i];
  }

  /** A document left out of the results scores no higher than any returned one. */
  lemma {:induction false} SearchKeepsBest(idx: Index, query: string, getScores: seq<string> -> seq<real>, k: int, e: (string, real))
    requires e in PySlice.Zip(idx.corpus, getScores(Tokenize(query)))
    requires e !in Search(idx, query, getScores, k)
    ensures forall i :: 0 <= i < |Search(idx, query, getScores, k)| ==> Search(idx, query, getScores, k)[i].1 >= e.1
  {
    var pairs := PySlice.Zip(idx.corpus, getScores(Tokenize(query)));
    var r := Search(idx, query, getScores, k);
    StableSort.SortPrefixDominates(pairs, |r|, Score, e);
  }

  /** With `k` at least the corpus size (and one score per document, as the library returns),
      every document appears in the results exactly as often as in the corpus. */
  lemma {:induction false} SearchAllWhenKLarge(idx: Index, query: string, getScores: seq<string> -> seq<real>, k: int)
    requires |getScores(Tokenize(query))| == |idx.corpus|
    requires k >= |idx.corpus|
    ensures multiset(Search(idx, query, getScores, k)) == multiset(PySlice.Zip(idx.corpus, getScores(Tokenize(query))))
  {
    var pairs := PySlice.Zip(idx.corpus, getScores(Tokenize(query)));
    var sorted := StableSort.Sort(pairs, Score);
    assert sorted[..|sorted|] == sorted;
  }
}

=== FILE: dedupe.dfy ===
/** First-seen deduplication by a string key, as the search code does with a `seen` set:
    the first element carrying a key is kept, in its place; later ones are dropped. */
module Dedupe {

  function KeySet<T>(xs: seq<T>, key: T -> string): set<string> {
    set i | 0 <= i < |xs| :: key(xs[i])
  }

  ghost predicate DistinctKeys<T>(xs: seq<T>, key: T -> string) {
    forall i, j :: 0 <= i < j < |xs| ==> key(xs[i]) != key(xs[j])
  }

  /** Position of the first element of `xs` whose key is `k`. */
  ghost function FirstIndex<T>(xs: seq<T>, key: T -> string, k: string): (i: nat)
    requires k in KeySet(xs, key)
    ensures i < |xs| && key(xs[i]) == k
    ensures forall j :: 0 <= j < i ==> key(xs[j]) != k
  {
    if key(xs[0]) == k then 0
    else
      assert k in KeySet(xs[1..], key) by {
        var i :| 0 <= i < |xs| && key(xs[i]) == k;
        assert xs[1..][i - 1] == xs[i];
      }
      1 + FirstIndex(xs[1..], key, k)
  }

  /** The result of first-seen deduplication: one element per key of `xs`, each the first
      occurrence of its key, listed in order of first occurrence. */
  ghost predicate FirstSeen<T>(xs: seq<T>, key: T -> string, r: seq<T>) {
    && DistinctKeys(r, key)
    && KeySet(r, key) == KeySet(xs, key)
    && (forall i :: 0 <= i < |r| ==> key(r[i]) in KeySet(xs, key) && r[i] == xs[FirstIndex(xs, key, key(r[i]))])
    && (forall i, j :: 0 <= i < j < |r| ==>
          key(r[i]) in KeySet(xs, key) && key(r[j]) in KeySet(xs, key) &&
          FirstIndex(xs, key, key(r[i])) < FirstIndex(xs, key, key(r[j])))
  }

  /** Scans `xs` left to right, keeping each element whose key has not been seen. */
  function Dedupe<T>(xs: seq<T>, key: T -> string): (r: seq<T>)
    ensures |r| <= |xs|
    decreases |xs|
  {
    if |xs| == 0 then []
    else
      var d := Dedupe(xs[..|xs| - 1], key);
      if key(xs[|xs| - 1]) in KeySet(d, key) then d else d + [xs[|xs| - 1]]
  }

  /** Deduplicating a non-empty sequence keeps at least one element. */
  lemma DedupeNonEmpty<T>(xs: seq<T>, key: T -> string)
    requires |xs| > 0
    ensures |Dedupe(xs, key)| > 0
  {
    DedupeFirstSeen(xs, key);
    assert key(xs[0]) in KeySet(Dedupe(xs, key), key);
  }

  /** `Dedupe` is first-seen deduplication. */
  lemma {:induction false} DedupeFirstSeen<T>(xs: seq<T>, key: T -> string)
    ensures FirstSeen(xs, key, Dedupe(xs, key))
    decreases |xs|
  {
    if |xs| > 0 {
      var init := xs[..|xs| - 1];
      var x := xs[|xs| - 1];
      DedupeFirstSeen(init, key);
      ExtendFirstSeen(init, x, key, Dedupe(init, key));
      assert init + [x] == xs;
    }
  }

  lemma {:induction false} KeySetAppend<T>(xs: seq<T>, ys: seq<T>, key: T -> string)
    ensures KeySet(xs + ys, key) == KeySet(xs, key) + KeySet(ys, key)
  {
    var zs := xs + ys;
    forall k | k in KeySet(zs, key) ensures k in KeySet(xs, key) + KeySet(ys, key) {
      var i :| 0 <= i < |zs| && key(zs[i]) == k;
      if i < |xs| { assert zs[i] == xs[i]; } else { assert zs[i] == ys[i - |xs|]; }
    }
    forall k | k in KeySet(xs, key) ensures k in KeySet(zs, key) {
      var i :| 0 <= i < |xs| && key(xs[i]) == k;
      assert zs[i] == xs[i];
    }
    forall k | k in KeySet(ys, key) ensures k in KeySet(zs, key) {
      var i :| 0 <= i < |ys| && key(ys[i]) == k;
      assert zs[|xs| + i] == ys[i];
    }
  }

  lemma {:induction false} KeySetSnoc<T>(xs: seq<T>, x: T, key: T -> string)
    ensures KeySet(xs + [x], key) == KeySet(xs, key) + {key(x)}
  {
    KeySetAppend(xs, [x], key);
    assert [x][0] == x;
    assert forall k :: k in KeySet([x], key) ==> k == key(x);
  }

  lemma {:induction false} NotInKeySet<T>(xs: seq<T>, key: T -> string, k: string)
    requires forall i :: 0 <= i < |xs| ==> key(xs[i]) != k
    ensures k !in KeySet(xs, key)
  {
  }

  /** `Dedupe` on a non-empty sequence, one step unfolded. */
  lemma {:induction false} DedupeSnoc<T>(xs: seq<T>, x: T, key: T -> string)
    ensures Dedupe(xs + [x], key) == if key(x) in KeySet(Dedupe(xs, key), key) then Dedupe(xs, key) else Dedupe(xs, key) + [x]
  {
    var zs := xs + [x];
    assert zs[..|zs| - 1] == xs;
    assert zs[|zs| - 1] == x;
  }

  /** One step of the source's loop: with `seen` the keys kept so far, the next element is
      kept exactly when its key is unseen. */
  lemma {:induction false} DedupeStep<T>(xs: seq<T>, x: T, key: T -> string, d: seq<T>, seen: set<string>)
    requires d == Dedupe(xs, key) && seen == KeySet(d, key)
    ensures key(x) in seen ==> Dedupe(xs + [x], key) == d
    ensures key(x) !in seen ==> Dedupe(xs + [x], key) == d + [x] && KeySet(d + [x], key) == seen + {key(x)}
  {
    DedupeSnoc(xs, x, key);
    KeySetSnoc(d, x, key);
  }

  /** The first occurrence of a key that occurs in `xs` is the same in `xs + ys`. */
  lemma {:induction false} FirstIndexAppend<T>(xs: seq<T>, ys: seq<T>, key: T -> string, k: string)
    requires k in KeySet(xs, key)
    ensures k in KeySet(xs + ys, key)
    ensures FirstIndex(xs + ys, key, k) == FirstIndex(xs, key, k)
  {
    KeySetAppend(xs, ys, key);
    var zs := xs + ys;
    assert forall j :: 0 <= j < |xs| ==> zs[j] == xs[j];
  }

  /** A key absent from `xs` first occurs in `xs + ys` inside `ys`. */
  lemma {:induction false} FirstIndexBeyond<T>(xs: seq<T>, ys: seq<T>, key: T -> string, k: string)
    requires k !in KeySet(xs, key) && k in KeySet(xs + ys, key)
    ensures FirstIndex(xs + ys, key, k) >= |xs|
  {
    var zs := xs + ys;
    assert forall j :: 0 <= j < |xs| ==> zs[j] == xs[j] && key(xs[j]) in KeySet(xs, key);
  }

  /** The inductive step of `Dedupe` when the new element repeats a key. */
  lemma {:induction false} ExtendFirstSeen<T>(xs: seq<T>, x: T, key: T -> string, d: seq<T>)
    requires FirstSeen(xs, key, d)
    ensures key(x) in KeySet(d, key) ==> FirstSeen(xs + [x], key, d)
    ensures key(x) !in KeySet(d, key) ==> FirstSeen(xs + [x], key, d + [x])
  {
    if key(x) in KeySet(d, key) {
      ExtendRepeat(xs, x, key, d);
    } else {
      ExtendFresh(xs, x, key, d);
    }
  }

  lemma {:induction false} ExtendRepeat<T>(xs: seq<T>, x: T, key: T -> string, d: seq<T>)
    requires FirstSeen(xs, key, d) && key(x) in KeySet(d, key)
    ensures FirstSeen(xs + [x], key, d)
  {
    var ys := xs + [x];
    KeySetSnoc(xs, x, key);
    forall k | k in KeySet(xs, key)
      ensures k in KeySet(ys, key) && FirstIndex(ys, key, k) == FirstIndex(xs, key, k)
    {
      FirstIndexAppend(xs, [x], key, k);
    }
    assert forall i :: 0 <= i < |xs| ==> ys[i] == xs[i];
  }

  lemma {:induction false} ExtendFresh<T>(xs: seq<T>, x: T, key: T -> string, d: seq<T>)
    requires FirstSeen(xs, key, d) && key(x) !in KeySet(d, key)
    ensures FirstSeen(xs + [x], key, d + [x])
  {
    var ys := xs + [x];
    var e := d + [x];
    KeySetSnoc(xs, x, key);
    KeySetSnoc(d, x, key);
    forall k | k in KeySet(xs, key)
      ensures k in KeySet(ys, key) && FirstIndex(ys, key, k) == FirstIndex(xs, key, k)
    {
      FirstIndexAppend(xs, [x], key, k);
    }
    FirstIndexBeyond(xs, [x], key, key(x));
    assert FirstIndex(ys, key, key(x)) == |xs|;
    ExtendFreshDistinct(d, x, key);
    ExtendFreshMembers(xs, x, key, d);
    ExtendFreshOrder(xs, x, key, d);
  }

  lemma ExtendFreshDistinct<T>(d: seq<T>, x: T, key: T -> string)
    requires DistinctKeys(d, key) && key(x) !in KeySet(d, key)
    ensures DistinctKeys(d + [x], key)
  {
    var e := d + [x];
    assert forall i :: 0 <= i < |d| ==> e[i] == d[i] && key(d[i]) in KeySet(d, key);
    assert e[|d|] == x;
  }

  lemma ExtendFreshMembers<T>(xs: seq<T>, x: T, key: T -> string, d: seq<T>)
    requires FirstSeen(xs, key, d) && key(x) !in KeySet(d, key)
    requires KeySet(xs + [x], key) == KeySet(xs, key) + {key(x)}
    requires forall k :: k in KeySet(xs, key) ==> k in KeySet(xs + [x], key) && FirstIndex(xs + [x], key, k) == FirstIndex(xs, key, k)
    requires key(x) in KeySet(xs + [x], key) && FirstIndex(xs + [x], key, key(x)) == |xs|
    ensures forall i :: 0 <= i < |d + [x]| ==>
      key((d + [x])[i]) in KeySet(xs + [x], key) && (d + [x])[i] == (xs + [x])[FirstIndex(xs + [x], key, key((d + [x])[i]))]
  {
    var ys, e := xs + [x], d + [x];
    forall i | 0 <= i < |e|
      ensures key(e[i]) in KeySet(ys, key) && e[i] == ys[FirstIndex(ys, key, key(e[i]))]
    {
      if i < |d| {
        assert e[i] == d[i];
        var f := FirstIndex(xs, key, key(d[i]));
        assert ys[f] == xs[f];
      } else {
        assert e[i] == x && ys[|xs|] == x;
      }
    }
  }

  lemma ExtendFreshOrder<T>(xs: seq<T>, x: T, key: T -> string, d: seq<T>)
    requires FirstSeen(xs, key, d) && key(x) !in KeySet(d, key)
    requires forall k :: k in KeySet(xs, key) ==> k in KeySet(xs + [x], key) && FirstIndex(xs + [x], key, k) == FirstIndex(xs, key, k)
    requires key(x) in KeySet(xs + [x], key) && FirstIndex(xs + [x], key, key(x)) == |xs|
    ensures forall i, j :: 0 <= i < j < |d + [x]| ==>
      key((d + [x])[i]) in KeySet(xs + [x], key) && key((d + [x])[j]) in KeySet(xs + [x], key) &&
      FirstIndex(xs + [x], key, key((d + [x])[i])) < FirstIndex(xs + [x], key, key((d + [x])[j]))
  {
    var ys, e := xs + [x], d + [x];
    forall i, j | 0 <= i < j < |e|
      ensures key(e[i]) in KeySet(ys, key) && key(e[j]) in KeySet(ys, key)
        && FirstIndex(ys, key, key(e[i])) < FirstIndex(ys, key, key(e[j]))
    {
      assert e[i] == d[i];
      if j < |d| {
        assert e[j] == d[j];
      } else {
        assert e[j] == x;
      }
    }
  }

  // ---------------------------------------------------------------- consequences

  /** Deduplicating a sequence whose keys are already distinct changes nothing. */
  lemma {:induction false} DedupeDistinct<T>(xs: seq<T>, key: T -> string)
    requires DistinctKeys(xs, key)
    ensures Dedupe(xs, key) == xs
    decreases |xs|
  {
    if |xs| > 0 {
      var init := xs[..|xs| - 1];
      var x := xs[|xs| - 1];
      assert xs == init + [x];
      assert DistinctKeys(init, key);
      DedupeDistinct(init, key);
      NotInKeySet(init, key, key(x));
      DedupeSnoc(init, x, key);
    }
  }

  /** Deduplication is idempotent. */
  lemma DedupeIdempotent<T>(xs: seq<T>, key: T -> string)
    ensures Dedupe(Dedupe(xs, key), key) == Dedupe(xs, key)
  {
    DedupeFirstSeen(xs, key);
    DedupeDistinct(Dedupe(xs, key), key);
  }

  /** In `Dedupe(xs + ys)`, the entries whose key occurs in `xs` are the instances from `xs`
      and come before every entry contributed by `ys` alone. */
  lemma {:induction false} FrontSourceFirst<T>(xs: seq<T>, ys: seq<T>, key: T -> string)
    ensures var r := Dedupe(xs + ys, key);
      && (forall i, j :: 0 <= i < j < |r| && key(r[j]) in KeySet(xs, key) ==> key(r[i]) in KeySet(xs, key))
      && (forall i :: 0 <= i < |r| && key(r[i]) in KeySet(xs, key) ==> r[i] == xs[FirstIndex(xs, key, key(r[i]))])
  {
    var zs := xs + ys;
    var r := Dedupe(zs, key);
    DedupeFirstSeen(zs, key);
    forall k | k in KeySet(zs, key) ensures (FirstIndex(zs, key, k) < |xs| <==> k in KeySet(xs, key)) {
      if k in KeySet(xs, key) {
        FirstIndexAppend(xs, ys, key, k);
      } else {
        FirstIndexBeyond(xs, ys, key, k);
      }
    }
    forall i | 0 <= i < |r| && key(r[i]) in KeySet(xs, key) ensures r[i] == xs[FirstIndex(xs, key, key(r[i]))] {
      FirstIndexAppend(xs, ys, key, key(r[i]));
    }
  }

  /** When every key of `ys` already occurs in `xs`, appending `ys` contributes nothing. */
  lemma {:induction false} CoveredSuffixAddsNothing<T>(xs: seq<T>, ys: seq<T>, key: T -> string)
    requires KeySet(ys, key) <= KeySet(xs, key)
    ensures Dedupe(xs + ys, key) == Dedupe(xs, key)
    decreases |ys|
  {
    if |ys| == 0 {
      assert xs + ys == xs;
    } else {
      var init := ys[..|ys| - 1];
      var y := ys[|ys| - 1];
      assert ys == init + [y];
      KeySetSnoc(init, y, key);
      CoveredSuffixAddsNothing(xs, init, key);
      assert xs + ys == (xs + init) + [y];
      DedupeSnoc(xs + init, y, key);
      KeySetAppend(xs, init, key);
      DedupeFirstSeen(xs + init, key);
      assert key(y) in KeySet(Dedupe(xs + init, key), key);
    }
  }
}

=== FILE: evaluator.dfy ===
/** `app/refiner/evaluator.py`: the batch audit. The language model's structured answer is an
    input: `None` when the call or its parsing raised, otherwise the list of evaluations. */
module Evaluator {
  import opened Results
  import opened Models
  import Text
  import Lists

  // ---------------------------------------------------------------- candidate block

  /** One candidate's lines in the prompt. */
  function CandidateEntry(c: CandidateCard): string {
    "CANDIDATE_ID: " + c.candidateId + "\nName: " + c.name + "\nSkills: " + Text.Join(c.skillsMatch, ", ") + "\n---\n"
  }

  /** The candidates block: the entries of all candidates, in order. */
  function CandidatesBlock(cs: seq<CandidateCard>): string {
    if |cs| == 0 then "" else CandidateEntry(cs[0]) + CandidatesBlock(cs[1..])
  }

  /** The block of a concatenation is the concatenation of the blocks. */
  lemma {:induction false} CandidatesBlockAppend(a: seq<CandidateCard>, b: seq<CandidateCard>)
    ensures CandidatesBlock(a + b) == CandidatesBlock(a) + CandidatesBlock(b)
    decreases |a|
  {
    if |a| == 0 {
      assert a + b == b;
    } else {
      assert (a + b)[1..] == a[1..] + b;
      CandidatesBlockAppend(a[1..], b);
    }
  }

  /** Every candidate's entry, with its id, name and skills, occurs in the block. */
  lemma {:induction false} CandidatesBlockHasEntry(cs: seq<CandidateCard>, i: int)
    requires 0 <= i < |cs|
    ensures Text.Contains(CandidatesBlock(cs), CandidateEntry(cs[i]))
  {
    var pre, post := cs[..i], cs[i + 1..];
    assert cs == pre + [cs[i]] + post;
    CandidatesBlockAppend(pre + [cs[i]], post);
    CandidatesBlockAppend(pre, [cs[i]]);
    assert [cs[i]][1..] == [];
    assert CandidatesBlock([cs[i]]) == CandidateEntry(cs[i]);
    assert CandidatesBlock(cs) == CandidatesBlock(pre) + CandidateEntry(cs[i]) + CandidatesBlock(post);
    Text.ContainsInfix(CandidatesBlock(pre), CandidateEntry(cs[i]), CandidatesBlock(post));
  }

  // ---------------------------------------------------------------- evaluation lookup

  /** One entry of the model's `evaluations` list. */
  datatype Evaluation = Evaluation(candidateId: string, summary: string, faithfulnessScore: real, relevancyScore: real)

  function Key(id: string): string { Text.Strip(id) }

  /** `{k: v for k, v in pairs}`: a later pair with the same key replaces an earlier one. */
  function ToMap<T>(ps: seq<(string, T)>): map<string, T>
    decreases |ps|
  {
    if |ps| == 0 then map[] else ToMap(ps[..|ps| - 1])[ps[|ps| - 1].0 := ps[|ps| - 1].1]
  }

  /** The keys of the map are the keys of the pairs. */
  lemma {:induction false} ToMapKeys<T>(ps: seq<(string, T)>, k: string)
    ensures k in ToMap(ps) <==> exists i :: 0 <= i < |ps| && ps[i].0 == k
    decreases |ps|
  {
    if |ps| > 0 {
      var init := ps[..|ps| - 1];
      ToMapKeys(init, k);
      assert forall i :: 0 <= i < |init| ==> init[i] == ps[i];
    }
  }

  /** `i` is the last position of key `k`. */
  ghost predicate LastFor<T>(ps: seq<(string, T)>, k: string, i: int) {
    0 <= i < |ps| && ps[i].0 == k && forall j :: i < j < |ps| ==> ps[j].0 != k
  }

  /** The value kept for a key is the one of its last pair. */
  lemma {:induction false} ToMapLastWins<T>(ps: seq<(string, T)>, k: string)
    requires k in ToMap(ps)
    ensures exists i :: LastFor(ps, k, i) && ToMap(ps)[k] == ps[i].1
    decreases |ps|
  {
    var init := ps[..|ps| - 1];
    if ps[|ps| - 1].0 == k {
      assert LastFor(ps, k, |ps| - 1);
    } else {
      assert k in ToMap(init);
      ToMapLastWins(init, k);
      var i :| LastFor(init, k, i) && ToMap(init)[k] == init[i].1;
      assert init[i] == ps[i];
      assert LastFor(ps, k, i);
    }
  }

  function Keyed(evals: seq<Evaluation>): (ps: seq<(string, Evaluation)>)
    ensures |ps| == |evals|
    ensures forall i :: 0 <= i < |evals| ==> ps[i] == (Key(evals[i].candidateId), evals[i])
  {
    seq(|evals|, i requires 0 <= i < |evals| => (Key(evals[i].candidateId), evals[i]))
  }

  /** `{str(e.candidate_id).strip(): e for e in evaluations}`. */
  function EvalLookup(evals: seq<Evaluation>): map<string, Evaluation> {
    ToMap(Keyed(evals))
  }

  /** Every evaluation's stripped id is a key, and a key's evaluation is the last one given
      for it. */
  lemma {:induction false} EvalLookupLastWins(evals: seq<Evaluation>, k: string)
    ensures k in EvalLookup(evals) <==> exists i :: 0 <= i < |evals| && Key(evals[i].candidateId) == k
    ensures k in EvalLookup(evals) ==>
      exists i :: (0 <= i < |evals| && Key(evals[i].candidateId) == k
        && EvalLookup(evals)[k] == evals[i] && forall j :: i < j < |evals| ==> Key(evals[j].candidateId) != k)
  {
    var ps := Keyed(evals);
    ToMapKeys(ps, k);
    if k in EvalLookup(evals) {
      ToMapLastWins(ps, k);
      var i :| LastFor(ps, k, i) && ToMap(ps)[k] == ps[i].1;
      assert forall j :: i < j < |evals| ==> ps[j].0 == Key(evals[j].candidateId);
    }
  }

  // ---------------------------------------------------------------- deep dives

  const FaithfulnessThreshold: real := 0.75

  const RelevancyThreshold: real := 0.70

  predicate IsTrustworthy(faithfulness: real, relevancy: real) {
    faithfulness >= FaithfulnessThreshold && relevancy >= RelevancyThreshold
  }

  const FoundInResume: string := "Found in resume"

  function IdentifiedSkills(skills: seq<string>, evidence: string): (r: seq<IdentifiedSkill>)
    ensures |r| == |skills|
    ensures forall i :: 0 <= i < |skills| ==> r[i] == IdentifiedSkill(skills[i], evidence)
  {
    seq(|skills|, i requires 0 <= i < |skills| => IdentifiedSkill(skills[i], evidence))
  }

  /** The deep dive built for a candidate with an evaluation, before validation. */
  function DeepDive(c: CandidateCard, e: Evaluation): (d: CandidateDeepDive)
    ensures d.candidateId == c.candidateId && d.explainability.whyMatchSummary == e.summary
    ensures d.isTrustworthy <==> e.faithfulnessScore >= 0.75 && e.relevancyScore >= 0.70
    ensures d.faithfulnessScore == e.faithfulnessScore && d.relevancyScore == e.relevancyScore
    ensures |d.explainability.identifiedSkills| == |c.skillsMatch|
    ensures forall i :: 0 <= i < |c.skillsMatch| ==>
      d.explainability.identifiedSkills[i] == IdentifiedSkill(c.skillsMatch[i], "Found in resume")
  {
    CandidateDeepDive(c.candidateId, Explainability(e.summary, IdentifiedSkills(c.skillsMatch, FoundInResume)),
                      e.faithfulnessScore, e.relevancyScore, IsTrustworthy(e.faithfulnessScore, e.relevancyScore))
  }

  /** One candidate's contribution: its deep dive when its stripped id has an evaluation. */
  function Entry(c: CandidateCard, lookup: map<string, Evaluation>): (r: seq<CandidateDeepDive>)
    ensures |r| <= 1
    ensures |r| == 1 <==> Key(c.candidateId) in lookup
    ensures |r| == 1 ==> r[0] == DeepDive(c, lookup[Key(c.candidateId)])
  {
    var k := Key(c.candidateId);
    if k in lookup then [DeepDive(c, lookup[k])] else []
  }

  /** The deep dives of every candidate that has an evaluation, in candidate order, had no
      validation failed. */
  function Ideal(cs: seq<CandidateCard>, lookup: map<string, Evaluation>): (r: seq<CandidateDeepDive>)
    ensures |r| <= |cs|
  {
    var f := (c: CandidateCard) => Entry(c, lookup);
    Lists.FlatMapAtMostOne(cs, f);
    Lists.FlatMap(cs, f)
  }

  /** Only candidates with an evaluation appear, each with the deep dive of its evaluation. */
  lemma IdealSound(cs: seq<CandidateCard>, lookup: map<string, Evaluation>, i: int)
    requires 0 <= i < |Ideal(cs, lookup)|
    ensures exists j :: (0 <= j < |cs| && Key(cs[j].candidateId) in lookup
      && Ideal(cs, lookup)[i] == DeepDive(cs[j], lookup[Key(cs[j].candidateId)]))
  {
    var f := (c: CandidateCard) => Entry(c, lookup);
    Lists.FlatMapSound(cs, f, i);
    var j, m :| 0 <= j < |cs| && 0 <= m < |f(cs[j])| && Lists.FlatMap(cs, f)[i] == f(cs[j])[m];
    assert Entry(cs[j], lookup)[m] == DeepDive(cs[j], lookup[Key(cs[j].candidateId)]);
  }

  lemma IdealStep(cs: seq<CandidateCard>, lookup: map<string, Evaluation>)
    requires |cs| > 0
    ensures Ideal(cs, lookup) == Entry(cs[0], lookup) + Ideal(cs[1..], lookup)
  {
  }

  /** Candidate order is kept: the ideal result of two blocks of candidates is the first
      block's followed by the second's. */
  lemma IdealAppend(a: seq<CandidateCard>, b: seq<CandidateCard>, lookup: map<string, Evaluation>)
    ensures Ideal(a + b, lookup) == Ideal(a, lookup) + Ideal(b, lookup)
  {
    Lists.FlatMapAppend(a, b, (c: CandidateCard) => Entry(c, lookup));
  }

  /** Every candidate with an evaluation gets its deep dive. */
  lemma IdealComplete(cs: seq<CandidateCard>, lookup: map<string, Evaluation>, i: int)
    requires 0 <= i < |cs| && Key(cs[i].candidateId) in lookup
    ensures DeepDive(cs[i], lookup[Key(cs[i].candidateId)]) in Ideal(cs, lookup)
  {
    Lists.FlatMapComplete(cs, (c: CandidateCard) => Entry(c, lookup), i, 0);
  }

  /** The loop over candidates: a candidate without an evaluation is skipped; the first deep
      dive that fails validation raises, and the loop ends with what it has built. */
  function BuildDives(cs: seq<CandidateCard>, lookup: map<string, Evaluation>): seq<CandidateDeepDive>
    decreases |cs|
  {
    if |cs| == 0 then []
    else
      var e := Entry(cs[0], lookup);
      if |e| == 0 then BuildDives(cs[1..], lookup)
      else if ValidateDeepDive(e[0]).Err? then []
      else [e[0]] + BuildDives(cs[1..], lookup)
  }

  /** One step of the loop. */
  lemma BuildDivesStep(cs: seq<CandidateCard>, lookup: map<string, Evaluation>)
    requires |cs| > 0
    ensures var e := Entry(cs[0], lookup);
      var r := BuildDives(cs, lookup);
      && (|e| == 0 ==> r == BuildDives(cs[1..], lookup))
      && (|e| > 0 && ValidateDeepDive(e[0]).Err? ==> r == [])
      && (|e| > 0 && ValidateDeepDive(e[0]).Ok? ==> r == [e[0]] + BuildDives(cs[1..], lookup))
  {
  }

  /** The loop returns the ideal result up to the first deep dive that fails validation:
      a prefix of it, every entry valid. */
  lemma {:induction false} BuildDivesSound(cs: seq<CandidateCard>, lookup: map<string, Evaluation>)
    ensures BuildDives(cs, lookup) <= Ideal(cs, lookup)
    ensures forall i :: 0 <= i < |BuildDives(cs, lookup)| ==> ValidDeepDive(BuildDives(cs, lookup)[i])
    decreases |cs|
  {
    if |cs| > 0 {
      var e := Entry(cs[0], lookup);
      var rest := BuildDives(cs[1..], lookup);
      BuildDivesStep(cs, lookup);
      IdealStep(cs, lookup);
      BuildDivesSound(cs[1..], lookup);
      if |e| == 0 {
        assert e == [];
        assert Ideal(cs, lookup) == Ideal(cs[1..], lookup);
      } else if ValidateDeepDive(e[0]).Ok? {
        assert e == [e[0]];
        Lists.PrefixCons(e[0], rest, Ideal(cs[1..], lookup));
        Lists.AllCons(e[0], rest, ValidDeepDive);
      }
    }
  }

  /** The loop stops early only at a deep dive that fails validation. */
  lemma {:induction false} BuildDivesStops(cs: seq<CandidateCard>, lookup: map<string, Evaluation>)
    ensures var r := BuildDives(cs, lookup);
      |r| < |Ideal(cs, lookup)| ==> ValidateDeepDive(Ideal(cs, lookup)[|r|]).Err?
    decreases |cs|
  {
    if |cs| > 0 {
      var e := Entry(cs[0], lookup);
      BuildDivesStep(cs, lookup);
      IdealStep(cs, lookup);
      BuildDivesStops(cs[1..], lookup);
      if |e| == 0 {
        assert e == [];
        assert Ideal(cs, lookup) == Ideal(cs[1..], lookup);
      } else if ValidateDeepDive(e[0]).Ok? {
        assert e == [e[0]];
        var rest := BuildDives(cs[1..], lookup);
        assert BuildDives(cs, lookup) == [e[0]] + rest;
        assert Ideal(cs, lookup) == [e[0]] + Ideal(cs[1..], lookup);
      } else {
        assert Ideal(cs, lookup)[0] == e[0];
      }
    }
  }

  /** Evaluations whose scores lie in [0, 1]. */
  predicate ScoresInRange(lookup: map<string, Evaluation>) {
    forall k :: k in lookup ==> UnitInterval(lookup[k].faithfulnessScore) && UnitInterval(lookup[k].relevancyScore)
  }

  /** When every evaluation's scores are in range nothing fails, and the whole ideal result
      is returned. */
  lemma {:induction false} BuildDivesComplete(cs: seq<CandidateCard>, lookup: map<string, Evaluation>)
    requires ScoresInRange(lookup)
    ensures BuildDives(cs, lookup) == Ideal(cs, lookup)
    decreases |cs|
  {
    if |cs| > 0 {
      BuildDivesComplete(cs[1..], lookup);
    }
  }

  /** `generate_and_evaluate_batch(description, job_requirements, candidates)` as written.
      The requirement list only feeds a field the deep-dive model does not declare, so it
      has no effect on the result. */
  function EvaluateBatch(description: string, jobRequirements: seq<string>, cs: seq<CandidateCard>,
                         batch: Option<seq<Evaluation>>): (r: seq<CandidateDeepDive>)
    ensures |cs| == 0 || batch.None? ==> r == []
    ensures batch.Some? ==> r <= Ideal(cs, EvalLookup(batch.value))
    ensures batch.Some? && |r| < |Ideal(cs, EvalLookup(batch.value))| ==>
      ValidateDeepDive(Ideal(cs, EvalLookup(batch.value))[|r|]).Err?
    ensures batch.Some? && ScoresInRange(EvalLookup(batch.value)) ==> r == Ideal(cs, EvalLookup(batch.value))
    ensures forall i :: 0 <= i < |r| ==> ValidDeepDive(r[i])
  {
    if |cs| == 0 then []
    else match batch
      case None => []
      case Some(evals) =>
        var lookup := EvalLookup(evals);
        BuildDivesSound(cs, lookup);
        BuildDivesStops(cs, lookup);
        if ScoresInRange(lookup) then
          BuildDivesComplete(cs, lookup);
          BuildDives(cs, lookup)
        else
          BuildDives(cs, lookup)
  }

  /** The finding, as written: two different requirement lists give the same audit. */
  lemma AsWrittenIgnoresRequirements(description: string, reqs1: seq<string>, reqs2: seq<string>,
                                     cs: seq<CandidateCard>, batch: Option<seq<Evaluation>>)
    ensures EvaluateBatch(description, reqs1, cs, batch) == EvaluateBatch(description, reqs2, cs, batch)
  {
  }

  // ---------------------------------------------------------------- requirement comparison

  /** `any(req.lower() in s for s in candidate_skills_lower)`. */
  predicate SubstringMet(requirement: string, skills: seq<string>) {
    exists i :: 0 <= i < |skills| && Text.Contains(Text.Lower(skills[i]), Text.Lower(requirement))
  }

  const VerifiedEvidence: string := "Verified in skills list"

  const MissingEvidence: string := "Not explicitly mentioned"

  function CompareRequirement(requirement: string, skills: seq<string>): (e: RequirementEvidence)
    ensures e.requirement == requirement
    ensures e.status.Met? <==> SubstringMet(requirement, skills)
    ensures e.status.Met? || e.status.NotMet?
    ensures e.candidateEvidence == (if e.status.Met? then VerifiedEvidence else MissingEvidence)
  {
    if SubstringMet(requirement, skills) then RequirementEvidence(requirement, VerifiedEvidence, Met)
    else RequirementEvidence(requirement, MissingEvidence, NotMet)
  }

  /** One entry per requirement, in order. */
  function RequirementsComparison(reqs: seq<string>, skills: seq<string>): (r: seq<RequirementEvidence>)
    ensures |r| == |reqs|
    ensures forall i :: 0 <= i < |reqs| ==> r[i] == CompareRequirement(reqs[i], skills)
    ensures forall i :: 0 <= i < |reqs| ==> r[i].requirement == reqs[i] && (r[i].status.Met? <==> SubstringMet(reqs[i], skills))
  {
    seq(|reqs|, i requires 0 <= i < |reqs| => CompareRequirement(reqs[i], skills))
  }

  /** A requirement written inside a listed skill, in any ASCII case, is met. */
  lemma {:induction false} SkillContainingRequirementMeets(requirement: string, skills: seq<string>, i: int, before: string, after: string)
    requires 0 <= i < |skills| && Text.Lower(skills[i]) == before + Text.Lower(requirement) + after
    ensures CompareRequirement(requirement, skills).status == Met
  {
    Text.ContainsInfix(before, Text.Lower(requirement), after);
  }

  // ---------------------------------------------------------------- corrected audit

  /** A deep dive together with the requirement comparison the audit computes for it: the
      record the code evidently meant to return. */
  datatype AuditedDeepDive = AuditedDeepDive(dive: CandidateDeepDive, requirementsComparison: seq<RequirementEvidence>)

  function Dives(r: seq<AuditedDeepDive>): (ds: seq<CandidateDeepDive>)
    ensures |ds| == |r|
    ensures forall i :: 0 <= i < |r| ==> ds[i] == r[i].dive
  {
    seq(|r|, i requires 0 <= i < |r| => r[i].dive)
  }

  lemma {:induction false} DivesCons(a: AuditedDeepDive, rest: seq<AuditedDeepDive>)
    ensures Dives([a] + rest) == [a.dive] + Dives(rest)
  {
    assert forall i :: 0 < i <= |rest| ==> ([a] + rest)[i] == rest[i - 1];
  }

  /** The corrected loop, with each kept deep dive paired with `compare` of its candidate. */
  function BuildAuditedWith(cs: seq<CandidateCard>, lookup: map<string, Evaluation>,
                            compare: CandidateCard -> seq<RequirementEvidence>): seq<AuditedDeepDive>
    decreases |cs|
  {
    if |cs| == 0 then []
    else
      var e := Entry(cs[0], lookup);
      if |e| == 0 then BuildAuditedWith(cs[1..], lookup, compare)
      else if ValidateDeepDive(e[0]).Err? then []
      else [AuditedDeepDive(e[0], compare(cs[0]))] + BuildAuditedWith(cs[1..], lookup, compare)
  }

  /** The corrected loop keeps exactly the deep dives of the loop as written. */
  lemma {:induction false} AuditedWithDives(cs: seq<CandidateCard>, lookup: map<string, Evaluation>,
                                            compare: CandidateCard -> seq<RequirementEvidence>)
    ensures Dives(BuildAuditedWith(cs, lookup, compare)) == BuildDives(cs, lookup)
    decreases |cs|
  {
    if |cs| > 0 {
      AuditedWithStep(cs, lookup, compare);
      AuditedWithDives(cs[1..], lookup, compare);
      var e := Entry(cs[0], lookup);
      if |e| > 0 && ValidateDeepDive(e[0]).Ok? {
        DivesCons(AuditedDeepDive(e[0], compare(cs[0])), BuildAuditedWith(cs[1..], lookup, compare));
      }
    }
  }

  /** The corrected loop: each deep dive carries the comparison of the requirements with
      its candidate's skills. */
  function BuildAudited(cs: seq<CandidateCard>, lookup: map<string, Evaluation>, reqs: seq<string>)
    : (r: seq<AuditedDeepDive>)
    ensures Dives(r) == BuildDives(cs, lookup)
  {
    var compare := (c: CandidateCard) => RequirementsComparison(reqs, c.skillsMatch);
    AuditedWithDives(cs, lookup, compare);
    BuildAuditedWith(cs, lookup, compare)
  }

  /** The audit with the requirement comparison kept. */
  function AuditBatch(description: string, jobRequirements: seq<string>, cs: seq<CandidateCard>,
                      batch: Option<seq<Evaluation>>): (r: seq<AuditedDeepDive>)
    ensures Dives(r) == EvaluateBatch(description, jobRequirements, cs, batch)
  {
    if |cs| == 0 then []
    else match batch
      case None => []
      case Some(evals) => BuildAudited(cs, EvalLookup(evals), jobRequirements)
  }

  /** `a` carries `compare` of some candidate of `cs` with its id. */
  ghost predicate ReportsFor(cs: seq<CandidateCard>, compare: CandidateCard -> seq<RequirementEvidence>, a: AuditedDeepDive) {
    exists j :: 0 <= j < |cs| && cs[j].candidateId == a.dive.candidateId && a.requirementsComparison == compare(cs[j])
  }

  lemma ReportsForTail(cs: seq<CandidateCard>, compare: CandidateCard -> seq<RequirementEvidence>, a: AuditedDeepDive)
    requires |cs| > 0 && ReportsFor(cs[1..], compare, a)
    ensures ReportsFor(cs, compare, a)
  {
    var j :| 0 <= j < |cs[1..]| && cs[1..][j].candidateId == a.dive.candidateId && a.requirementsComparison == compare(cs[1..][j]);
    assert cs[j + 1] == cs[1..][j];
  }

  lemma ReportsForHead(cs: seq<CandidateCard>, compare: CandidateCard -> seq<RequirementEvidence>, a: AuditedDeepDive)
    requires |cs| > 0 && cs[0].candidateId == a.dive.candidateId && a.requirementsComparison == compare(cs[0])
    ensures ReportsFor(cs, compare, a)
  {
  }

  /** One step of the corrected loop. */
  lemma AuditedWithStep(cs: seq<CandidateCard>, lookup: map<string, Evaluation>,
                        compare: CandidateCard -> seq<RequirementEvidence>)
    requires |cs| > 0
    ensures var e := Entry(cs[0], lookup);
      var rest := BuildAuditedWith(cs[1..], lookup, compare);
      var r := BuildAuditedWith(cs, lookup, compare);
      && (|e| == 0 ==> r == rest)
      && (|e| > 0 && ValidateDeepDive(e[0]).Err? ==> r == [])
      && (|e| > 0 && ValidateDeepDive(e[0]).Ok? ==> r == [AuditedDeepDive(e[0], compare(cs[0]))] + rest)
  {
  }

  lemma {:induction false} AuditedWithReports(cs: seq<CandidateCard>, lookup: map<string, Evaluation>,
                                              compare: CandidateCard -> seq<RequirementEvidence>, i: int)
    requires 0 <= i < |BuildAuditedWith(cs, lookup, compare)|
    ensures ReportsFor(cs, compare, BuildAuditedWith(cs, lookup, compare)[i])
    decreases |cs|
  {
    var r := BuildAuditedWith(cs, lookup, compare);
    var e := Entry(cs[0], lookup);
    var rest := BuildAuditedWith(cs[1..], lookup, compare);
    if |e| == 0 {
      assert r == rest by { AuditedWithStep(cs, lookup, compare); }
      AuditedWithReports(cs[1..], lookup, compare, i);
      ReportsForTail(cs, compare, rest[i]);
    } else {
      var a := AuditedDeepDive(e[0], compare(cs[0]));
      assert r == [a] + rest by { AuditedWithStep(cs, lookup, compare); }
      if i == 0 {
        ReportsForHead(cs, compare, a);
      } else {
        AuditedWithReports(cs[1..], lookup, compare, i - 1);
        ReportsForTail(cs, compare, rest[i - 1]);
      }
    }
  }

  /** Every audited deep dive carries one comparison entry per requirement, judged against
      the skills of a candidate with the id it describes. */
  lemma AuditedReportsRequirements(cs: seq<CandidateCard>, lookup: map<string, Evaluation>, reqs: seq<string>, i: int)
    requires 0 <= i < |BuildAudited(cs, lookup, reqs)|
    ensures var a := BuildAudited(cs, lookup, reqs)[i];
      exists j :: (0 <= j < |cs| && cs[j].candidateId == a.dive.candidateId
        && a.requirementsComparison == RequirementsComparison(reqs, cs[j].skillsMatch))
  {
    var compare := (c: CandidateCard) => RequirementsComparison(reqs, c.skillsMatch);
    AuditedWithReports(cs, lookup, compare, i);
    var a := BuildAudited(cs, lookup, reqs)[i];
    var j :| 0 <= j < |cs| && cs[j].candidateId == a.dive.candidateId && a.requirementsComparison == compare(cs[j]);
    assert a.requirementsComparison == RequirementsComparison(reqs, cs[j].skillsMatch);
  }
}

=== FILE: explainer.dfy ===
/** `app/refiner/explainer.py`: one explanation per candidate. The language model's answer is
    the parameter `explain`, `None` when the call raised (which ends the whole call). */
module Explainer {
  import opened Results
  import opened Models
  import Text
  import Evaluator

  const ListedEvidence: string := "Explicitly listed in candidate CV"

  const PresentEvidence: string := "Skill explicitly present in CV"

  const AbsentEvidence: string := "No evidence found in CV"

  /** `{skill.lower() for skill in candidate.skills_match}`. */
  function LowerSkills(skills: seq<string>): set<string> {
    set i | 0 <= i < |skills| :: Text.Lower(skills[i])
  }

  /** `requirement.lower() in candidate_skill_names`: exact, case-insensitive membership. */
  predicate ExactMet(requirement: string, skills: seq<string>) {
    Text.Lower(requirement) in LowerSkills(skills)
  }

  function CompareRequirement(requirement: string, skills: seq<string>): (e: RequirementEvidence)
    ensures e.requirement == requirement
    ensures e.status.Met? <==> exists i :: 0 <= i < |skills| && Text.Lower(skills[i]) == Text.Lower(requirement)
    ensures e.status.Met? || e.status.NotMet?
    ensures e.candidateEvidence == (if e.status.Met? then PresentEvidence else AbsentEvidence)
  {
    if ExactMet(requirement, skills) then RequirementEvidence(requirement, PresentEvidence, Met)
    else RequirementEvidence(requirement, AbsentEvidence, NotMet)
  }

  function RequirementsComparison(reqs: seq<string>, skills: seq<string>): (r: seq<RequirementEvidence>)
    ensures |r| == |reqs|
    ensures forall i :: 0 <= i < |reqs| ==> r[i] == CompareRequirement(reqs[i], skills)
    ensures forall i :: 0 <= i < |reqs| ==> r[i].requirement == reqs[i] && (r[i].status.Met? <==> ExactMet(reqs[i], skills))
  {
    seq(|reqs|, i requires 0 <= i < |reqs| => CompareRequirement(reqs[i], skills))
  }

  /** An exact match is in particular a substring match: whatever this module reports met,
      the batch audit reports met too. */
  lemma {:induction false} ExactMetImpliesSubstringMet(requirement: string, skills: seq<string>)
    requires CompareRequirement(requirement, skills).status == Met
    ensures Evaluator.CompareRequirement(requirement, skills).status == Met
  {
    var i :| 0 <= i < |skills| && Text.Lower(skills[i]) == Text.Lower(requirement);
    Text.ContainsSelf(Text.Lower(requirement));
  }

  /** The converse fails: a requirement written inside a longer skill name is met for the
      batch audit and not met here. */
  lemma SubstringNotExact()
    ensures Evaluator.CompareRequirement("sql", ["postgresql"]).status == Met
    ensures CompareRequirement("sql", ["postgresql"]).status == NotMet
  {
    var skills := ["postgresql"];
    assert skills[0] == "postgresql";
    Text.ContainsInfix("postgre", "sql", "");
    assert Text.Lower("sql") == "sql";
    assert Text.Lower("postgresql") == "postgre" + "sql" + "";
    assert Evaluator.SubstringMet("sql", skills);
    assert LowerSkills(skills) == {Text.Lower("postgresql")};
    assert !ExactMet("sql", skills);
  }

  /** The deep dive for one candidate: the generated text as summary, every listed skill
      identified, both scores zero and never trustworthy. */
  function Explained(c: CandidateCard, text: string): CandidateDeepDive {
    CandidateDeepDive(c.candidateId, Explainability(text, Evaluator.IdentifiedSkills(c.skillsMatch, ListedEvidence)), 0.0, 0.0, false)
  }

  /** `generate_explanations(job_description, job_requirements, candidates)` as written. */
  function GenerateExplanations(jobDescription: string, reqs: seq<string>, cs: seq<CandidateCard>,
                                explain: (string, seq<string>, CandidateCard) -> Option<string>)
    : (r: Result<seq<CandidateDeepDive>>)
    ensures r.Ok? <==> forall i :: 0 <= i < |cs| ==> explain(jobDescription, reqs, cs[i]).Some?
    ensures r.Ok? ==> |r.value| == |cs|
    ensures r.Ok? ==> forall i :: 0 <= i < |cs| ==>
      && r.value[i].candidateId == cs[i].candidateId
      && r.value[i].explainability.whyMatchSummary == explain(jobDescription, reqs, cs[i]).value
      && r.value[i].faithfulnessScore == 0.0 && r.value[i].relevancyScore == 0.0 && !r.value[i].isTrustworthy
      && ValidDeepDive(r.value[i])
    decreases |cs|
  {
    if |cs| == 0 then Ok([])
    else
      match explain(jobDescription, reqs, cs[0])
      case None => Err("language model call failed")
      case Some(text) =>
        var rest := GenerateExplanations(jobDescription, reqs, cs[1..], explain);
        assert forall i :: 1 <= i < |cs| ==> cs[i] == cs[1..][i - 1];
        if rest.Err? then
          assert exists i :: 1 <= i < |cs| && explain(jobDescription, reqs, cs[i]).None? by {
            var j :| 0 <= j < |cs[1..]| && explain(jobDescription, reqs, cs[1..][j]).None?;
            assert explain(jobDescription, reqs, cs[j + 1]).None?;
          }
          Err(rest.error)
        else
          Ok([Explained(cs[0], text)] + rest.value)
  }

  /** Each identified skill is a listed skill of that candidate, with the fixed evidence. */
  lemma {:induction false} IdentifiedSkillsListed(jobDescription: string, reqs: seq<string>, cs: seq<CandidateCard>,
                                                  explain: (string, seq<string>, CandidateCard) -> Option<string>, i: int)
    requires GenerateExplanations(jobDescription, reqs, cs, explain).Ok?
    requires 0 <= i < |cs|
    ensures GenerateExplanations(jobDescription, reqs, cs, explain).value[i].explainability.identifiedSkills
      == Evaluator.IdentifiedSkills(cs[i].skillsMatch, ListedEvidence)
    decreases |cs|
  {
    if i > 0 {
      IdentifiedSkillsListed(jobDescription, reqs, cs[1..], explain, i - 1);
      assert cs[1..][i - 1] == cs[i];
    }
  }

  /** The corrected explanation: each deep dive keeps the requirement comparison computed
      for its candidate. */
  function GenerateAuditedExplanations(jobDescription: string, reqs: seq<string>, cs: seq<CandidateCard>,
                                       explain: (string, seq<string>, CandidateCard) -> Option<string>)
    : (r: Result<seq<Evaluator.AuditedDeepDive>>)
    ensures r.Ok? <==> GenerateExplanations(jobDescription, reqs, cs, explain).Ok?
    ensures r.Ok? ==> Evaluator.Dives(r.value) == GenerateExplanations(jobDescription, reqs, cs, explain).value
    ensures r.Ok? ==> forall i :: 0 <= i < |cs| ==> r.value[i].requirementsComparison == RequirementsComparison(reqs, cs[i].skillsMatch)
  {
    match GenerateExplanations(jobDescription, reqs, cs, explain)
    case Err(e) => Err(e)
    case Ok(ds) =>
      var r := seq(|ds|, i requires 0 <= i < |ds| && |ds| == |cs| =>
        Evaluator.AuditedDeepDive(ds[i], RequirementsComparison(reqs, cs[i].skillsMatch)));
      assert Evaluator.Dives(r) == ds;
      Ok(r)
  }

  /** The finding, as written: the requirement list reaches only the prompt, so with the
      same generated texts two requirement lists give the same deep dives. */
  lemma AsWrittenDropsComparison(jobDescription: string, reqs1: seq<string>, reqs2: seq<string>, cs: seq<CandidateCard>,
                                 explain: (string, seq<string>, CandidateCard) -> Option<string>)
    requires forall c :: explain(jobDescription, reqs1, c) == explain(jobDescription, reqs2, c)
    ensures GenerateExplanations(jobDescription, reqs1, cs, explain) == GenerateExplanations(jobDescription, reqs2, cs, explain)
    decreases |cs|
  {
    if |cs| > 0 {
      AsWrittenDropsComparison(jobDescription, reqs1, reqs2, cs[1..], explain);
    }
  }
}

=== FILE: lists.dfy ===
/** Concatenating the pieces that a function produces for each element of a list, the shape
    of a loop that appends zero or more outputs per input. */
module Lists {
  import opened Results

  function FlatMap<A, B>(xs: seq<A>, f: A -> seq<B>): seq<B>
    decreases |xs|
  {
    if |xs| == 0 then [] else f(xs[0]) + FlatMap(xs[1..], f)
  }

  /** The loop over a concatenation is the loop over each part. */
  lemma {:induction false} FlatMapAppend<A, B>(a: seq<A>, b: seq<A>, f: A -> seq<B>)
    ensures FlatMap(a + b, f) == FlatMap(a, f) + FlatMap(b, f)
    decreases |a|
  {
    if |a| == 0 {
      assert a + b == b;
    } else {
      assert (a + b)[0] == a[0] && (a + b)[1..] == a[1..] + b;
      FlatMapAppend(a[1..], b, f);
    }
  }

  /** At most one output per input gives at most one output per input overall. */
  lemma {:induction false} FlatMapAtMostOne<A, B>(xs: seq<A>, f: A -> seq<B>)
    requires forall x :: x in xs ==> |f(x)| <= 1
    ensures |FlatMap(xs, f)| <= |xs|
    decreases |xs|
  {
    if |xs| > 0 {
      assert xs[0] in xs;
      assert forall x :: x in xs[1..] ==> x in xs;
      FlatMapAtMostOne(xs[1..], f);
    }
  }

  /** Every output comes from some input. */
  lemma {:induction false} FlatMapSound<A, B>(xs: seq<A>, f: A -> seq<B>, i: int)
    requires 0 <= i < |FlatMap(xs, f)|
    ensures exists j, m :: 0 <= j < |xs| && 0 <= m < |f(xs[j])| && FlatMap(xs, f)[i] == f(xs[j])[m]
    decreases |xs|
  {
    var head := f(xs[0]);
    if i < |head| {
      assert FlatMap(xs, f)[i] == f(xs[0])[i];
    } else {
      FlatMapSound(xs[1..], f, i - |head|);
      var j, m :| 0 <= j < |xs[1..]| && 0 <= m < |f(xs[1..][j])| && FlatMap(xs[1..], f)[i - |head|] == f(xs[1..][j])[m];
      assert xs[1..][j] == xs[j + 1];
    }
  }

  /** Every output of every input is produced. */
  lemma {:induction false} FlatMapComplete<A, B>(xs: seq<A>, f: A -> seq<B>, j: int, m: int)
    requires 0 <= j < |xs| && 0 <= m < |f(xs[j])|
    ensures f(xs[j])[m] in FlatMap(xs, f)
  {
    assert xs == xs[..j] + ([xs[j]] + xs[j + 1..]);
    FlatMapAppend(xs[..j], [xs[j]] + xs[j + 1..], f);
    FlatMapAppend([xs[j]], xs[j + 1..], f);
    assert [xs[j]][1..] == [];
    assert FlatMap([xs[j]], f) == f(xs[j]);
  }

  lemma PrefixCons<T>(x: T, a: seq<T>, b: seq<T>)
    requires a <= b
    ensures [x] + a <= [x] + b
  {
    assert forall i :: 0 < i <= |a| ==> ([x] + a)[i] == a[i - 1] && ([x] + b)[i] == b[i - 1];
  }

  lemma AllCons<T>(x: T, xs: seq<T>, p: T -> bool)
    requires p(x) && forall i :: 0 <= i < |xs| ==> p(xs[i])
    ensures forall i :: 0 <= i < |[x] + xs| ==> p(([x] + xs)[i])
  {
    assert forall i :: 0 < i <= |xs| ==> ([x] + xs)[i] == xs[i - 1];
  }

  /** A loop that maps every element, with its position counted from `start`, through a
      step that may raise; the first error ends the loop. */
  function TryMap<A, B>(xs: seq<A>, start: nat, f: (A, nat) -> Result<B>): Result<seq<B>>
    decreases |xs|
  {
    if |xs| == 0 then Ok([])
    else
      var y := f(xs[0], start);
      if y.Err? then Err(y.error)
      else
        var rest := TryMap(xs[1..], start + 1, f);
        if rest.Err? then Err(rest.error) else Ok([y.value] + rest.value)
  }

  /** The loop succeeds exactly when every step does, and then returns every step's value
      in order. */
  lemma {:induction false} TryMapElementwise<A, B>(xs: seq<A>, start: nat, f: (A, nat) -> Result<B>)
    ensures TryMap(xs, start, f).Ok? <==> forall i :: 0 <= i < |xs| ==> f(xs[i], start + i).Ok?
    ensures TryMap(xs, start, f).Ok? ==> |TryMap(xs, start, f).value| == |xs|
    ensures TryMap(xs, start, f).Ok? ==>
      forall i :: 0 <= i < |xs| ==> TryMap(xs, start, f).value[i] == f(xs[i], start + i).value
    decreases |xs|
  {
    if |xs| > 0 {
      var tail := xs[1..];
      TryMapElementwise(tail, start + 1, f);
      assert forall i :: 1 <= i < |xs| ==> xs[i] == tail[i - 1] && start + i == (start + 1) + (i - 1);
      var y := f(xs[0], start);
      var rest := TryMap(tail, start + 1, f);
      if y.Ok? && rest.Ok? {
        assert forall i :: 1 <= i <= |rest.value| ==> ([y.value] + rest.value)[i] == rest.value[i - 1];
      }
      if y.Ok? && rest.Err? {
        var j :| 0 <= j < |tail| && !f(tail[j], start + 1 + j).Ok?;
        assert !f(xs[j + 1], start + (j + 1)).Ok?;
      }
    }
  }
}

=== FILE: models.dfy ===
/** The request, job, card and analysis records of `app/models.py`, with the field
    constraints pydantic enforces when each is built. */
module Models {
  import opened Results

  /** A value in the closed unit interval. */
  predicate UnitInterval(x: real) {
    0.0 <= x <= 1.0
  }

  // ---------------------------------------------------------------- requests and jobs

  datatype JobDescriptionRequest = JobDescriptionRequest(description: string)

  const MinDescriptionLength: nat := 20

  /** Building a `JobDescriptionRequest`: the description needs at least 20 characters. */
  function NewJobDescriptionRequest(description: string): (r: Result<JobDescriptionRequest>)
    ensures r.Ok? <==> |description| >= 20
    ensures r.Ok? ==> r.value.description == description
  {
    if |description| >= MinDescriptionLength then Ok(JobDescriptionRequest(description))
    else Err("ValidationError: String should have at least 20 characters")
  }

  datatype JobDescription = JobDescription(
    title: string,
    description: string,
    requiredSkills: seq<string>,
    seniorityLevel: Option<string>,
    department: Option<string>)

  const SeniorityLevels: set<string> := {"junior", "mid", "senior", "lead"}

  const MaxDepartmentLength: nat := 100

  /** The `^(junior|mid|senior|lead)$` pattern on an optional seniority level. */
  predicate ValidSeniority(level: Option<string>) {
    level.None? || level.value in SeniorityLevels
  }

  /** The `max_length=100` constraint on an optional department. */
  predicate ValidDepartment(department: Option<string>) {
    department.None? || |department.value| <= MaxDepartmentLength
  }

  predicate ValidJobDescription(job: JobDescription) {
    ValidSeniority(job.seniorityLevel) && ValidDepartment(job.department)
  }

  /** Building a `JobDescription`; `None` for `title` or `requiredSkills` means the argument
      was omitted and its default applies. */
  function NewJobDescription(
    description: string,
    title: Option<string>,
    requiredSkills: Option<seq<string>>,
    seniorityLevel: Option<string>,
    department: Option<string>): (r: Result<JobDescription>)
    ensures r.Ok? <==> ValidSeniority(seniorityLevel) && ValidDepartment(department)
    ensures r.Ok? ==> ValidJobDescription(r.value) && r.value.description == description
    ensures r.Ok? ==> r.value.title == (if title.Some? then title.value else "Unknown")
    ensures r.Ok? ==> r.value.requiredSkills == (if requiredSkills.Some? then requiredSkills.value else [])
  {
    if !ValidSeniority(seniorityLevel) then Err("ValidationError: seniority_level does not match pattern")
    else if !ValidDepartment(department) then Err("ValidationError: department should have at most 100 characters")
    else Ok(JobDescription(title.GetOr("Unknown"), description, requiredSkills.GetOr([]), seniorityLevel, department))
  }

  /** With only a description, a job gets the documented defaults and is valid. */
  lemma JobDescriptionDefaults(description: string)
    ensures NewJobDescription(description, None, None, None, None)
      == Ok(JobDescription("Unknown", description, [], None, None))
  {
  }

  /** A seniority level outside the four allowed words is refused, whatever else is given. */
  lemma SeniorityOutsidePatternRefused(description: string, level: string)
    requires level !in SeniorityLevels
    ensures NewJobDescription(description, None, None, Some(level), None).Err?
  {
  }

  // ---------------------------------------------------------------- analysis records

  datatype IdentifiedSkill = IdentifiedSkill(skill: string, evidence: string)

  datatype RequirementStatus = Met | Partial | NotMet

  datatype RequirementEvidence = RequirementEvidence(
    requirement: string,
    candidateEvidence: string,
    status: RequirementStatus)

  datatype ExplainabilityAnalysis = ExplainabilityAnalysis(
    whyMatchSummary: string,
    identifiedSkills: seq<IdentifiedSkill>,
    requiredSkills: seq<string>,
    seniorityLevel: Option<string>,
    yearsOfExperience: Option<int>,
    department: Option<string>)

  /** `ExplainabilityAnalysis(why_match_summary=..., identified_skills=...)`, every other
      field at its default. */
  function Explainability(summary: string, skills: seq<IdentifiedSkill>): ExplainabilityAnalysis {
    ExplainabilityAnalysis(summary, skills, [], None, None, None)
  }

  predicate ValidExplainability(e: ExplainabilityAnalysis) {
    ValidSeniority(e.seniorityLevel) && ValidDepartment(e.department)
  }

  // ---------------------------------------------------------------- candidate cards

  datatype CandidateCard = CandidateCard(
    candidateId: string,
    name: string,
    avatarUrl: Option<string>,
    currentTitle: string,
    company: string,
    yearsExperience: int,
    seniorityLevel: string,
    location: Option<string>,
    score: real,
    skillsMatch: seq<string>,
    aiReasoningShort: string)

  /** The `ge=0, le=1` constraint on a card's score. */
  predicate ValidCard(c: CandidateCard) {
    UnitInterval(c.score)
  }

  /** Building a `CandidateCard`: refused unless its score lies in [0, 1]. */
  function ValidateCard(c: CandidateCard): (r: Result<CandidateCard>)
    ensures r.Ok? <==> 0.0 <= c.score <= 1.0
    ensures r.Ok? ==> r.value == c
  {
    if ValidCard(c) then Ok(c) else Err("ValidationError: score should be between 0 and 1")
  }

  // ---------------------------------------------------------------- deep dives

  datatype CandidateDeepDive = CandidateDeepDive(
    candidateId: string,
    explainability: ExplainabilityAnalysis,
    faithfulnessScore: real,
    relevancyScore: real,
    isTrustworthy: bool)

  predicate ValidDeepDive(d: CandidateDeepDive) {
    UnitInterval(d.faithfulnessScore) && UnitInterval(d.relevancyScore) && ValidExplainability(d.explainability)
  }

  /** Building a `CandidateDeepDive`: refused unless faithfulness and relevancy both lie in
      [0, 1] (and the nested analysis is valid). */
  function ValidateDeepDive(d: CandidateDeepDive): (r: Result<CandidateDeepDive>)
    ensures ValidExplainability(d.explainability) ==>
      (r.Ok? <==> 0.0 <= d.faithfulnessScore <= 1.0 && 0.0 <= d.relevancyScore <= 1.0)
    ensures r.Ok? ==> r.value == d && ValidDeepDive(d)
  {
    if ValidDeepDive(d) then Ok(d) else Err("ValidationError: scores should be between 0 and 1")
  }

  // ---------------------------------------------------------------- API responses

  /** The second `MatchResult` declaration, the one in effect. */
  datatype MatchResult = MatchResult(
    candidateId: string,
    name: string,
    score: real,
    skillsMatch: seq<string>,
    reasoning: Option<string>,
    faithfulnessScore: Option<real>)

  predicate ValidMatchResult(m: MatchResult) {
    UnitInterval(m.score) && (m.faithfulnessScore.None? || UnitInterval(m.faithfulnessScore.value))
  }

  /** Building a `MatchResult`: score in [0, 1]; faithfulness absent or in [0, 1]. */
  function ValidateMatchResult(m: MatchResult): (r: Result<MatchResult>)
    ensures r.Ok? <==> 0.0 <= m.score <= 1.0 && (m.faithfulnessScore.Some? ==> 0.0 <= m.faithfulnessScore.value <= 1.0)
    ensures r.Ok? ==> r.value == m
  {
    if ValidMatchResult(m) then Ok(m) else Err("ValidationError: score should be between 0 and 1")
  }

  datatype MatchResponse = MatchResponse(totalCandidates: int, topMatches: seq<MatchResult>)

  predicate ValidMatchResponse(r: MatchResponse) {
    forall i :: 0 <= i < |r.topMatches| ==> ValidMatchResult(r.topMatches[i])
  }
}

=== FILE: monitor.dfy ===
/** `app/performance_monitor.py`: the `PerformanceMonitor` metrics store. The clock is the
    parameter `timestamp`. */
module PerformanceMonitor {

  datatype Entry = Entry(value: real, unit: string, timestamp: real)

  /** `self.metrics`: recorded entries per metric name, oldest first. */
  type Metrics = map<string, seq<Entry>>

  const DefaultUnit: string := "seconds"

  /** `PerformanceMonitor()`. */
  function New(): (m: Metrics)
    ensures forall name :: name !in m
  {
    map[]
  }

  /** `record_metric(name, value, unit)`. */
  function RecordMetric(m: Metrics, name: string, value: real, unit: string, timestamp: real): (m': Metrics)
    ensures name in m'
    ensures m'[name] == (if name in m then m[name] else []) + [Entry(value, unit, timestamp)]
    ensures forall other :: other != name ==> (other in m' <==> other in m)
    ensures forall other :: other != name && other in m ==> m'[other] == m[other]
  {
    var existing := if name in m then m[name] else [];
    m[name := existing + [Entry(value, unit, timestamp)]]
  }

  function Sum(es: seq<Entry>): real {
    if |es| == 0 then 0.0 else Sum(es[..|es| - 1]) + es[|es| - 1].value
  }

  /** `get_average_metric(name)`. */
  function AverageMetric(m: Metrics, name: string): (avg: real)
    ensures name !in m || |m[name]| == 0 ==> avg == 0.0
    ensures name in m && |m[name]| > 0 ==> avg * (|m[name]| as real) == Sum(m[name])
  {
    if name !in m || |m[name]| == 0 then 0.0 else Sum(m[name]) / (|m[name]| as real)
  }

  /** `n` equal values sum to `n` times the value. */
  lemma {:induction false} SumOfEqualValues(es: seq<Entry>, v: real)
    requires forall i :: 0 <= i < |es| ==> es[i].value == v
    ensures Sum(es) == (|es| as real) * v
    decreases |es|
  {
    if |es| > 0 {
      SumOfEqualValues(es[..|es| - 1], v);
    }
  }

  /** A metric whose recorded values are all equal averages to that value. */
  lemma EqualValuesAverage(m: Metrics, name: string, v: real)
    requires name in m && |m[name]| > 0
    requires forall i :: 0 <= i < |m[name]| ==> m[name][i].value == v
    ensures AverageMetric(m, name) == v
  {
    SumOfEqualValues(m[name], v);
  }

  /** Recording a value adds it to the metric's sum and one to its count. */
  lemma RecordAddsToSum(m: Metrics, name: string, value: real, unit: string, timestamp: real)
    ensures var es := RecordMetric(m, name, value, unit, timestamp)[name];
      Sum(es) == (if name in m then Sum(m[name]) else 0.0) + value
      && |es| == (if name in m then |m[name]| else 0) + 1
  {
    var es := RecordMetric(m, name, value, unit, timestamp)[name];
    assert es[..|es| - 1] == if name in m then m[name] else [];
  }

  /** A single recording into a fresh monitor averages to the recorded value. */
  lemma FirstRecordAverage(name: string, value: real, timestamp: real)
    ensures AverageMetric(RecordMetric(New(), name, value, DefaultUnit, timestamp), name) == value
  {
    RecordAddsToSum(New(), name, value, DefaultUnit, timestamp);
  }

  /** Recording under one name leaves every other name's average unchanged. */
  lemma RecordKeepsOtherAverages(m: Metrics, name: string, other: string, value: real, unit: string, timestamp: real)
    requires other != name
    ensures AverageMetric(RecordMetric(m, name, value, unit, timestamp), other) == AverageMetric(m, other)
  {
  }
}

=== FILE: pyslice.dfy ===
/** Python's prefix slice `xs[:n]` for an arbitrary integer `n`. */
module PySlice {

  function Min(a: int, b: int): int { if a <= b then a else b }

  function Max(a: int, b: int): int { if a >= b then a else b }

  /** `xs[:n]`: a non-negative `n` keeps at most `n` leading elements, a negative `n`
      drops `-n` trailing elements. */
  function Take<T>(xs: seq<T>, n: int): (r: seq<T>)
    ensures |r| <= |xs| && r == xs[..|r|]
    ensures n >= 0 ==> |r| == Min(n, |xs|)
    ensures n < 0 ==> |r| == Max(0, |xs| + n)
  {
    if n >= 0 then xs[..Min(n, |xs|)] else xs[..Max(0, |xs| + n)]
  }

  /** Python's `zip`: pairs elements position by position and stops at the shorter input. */
  function Zip<A, B>(xs: seq<A>, ys: seq<B>): (r: seq<(A, B)>)
    ensures |r| == Min(|xs|, |ys|)
    ensures forall i :: 0 <= i < |r| ==> r[i] == (xs[i], ys[i])
  {
    seq(Min(|xs|, |ys|), i requires 0 <= i < Min(|xs|, |ys|) => (xs[i], ys[i]))
  }
}

=== FILE: queryexpansion.dfy ===
/** `app/query_expansion.py`: the older query expander. The language-model chain is not
    modelled; what it did is an input. */
module QueryExpansion {
  import Text

  /** What became of the generator: it was never configured (no API key), it raised, or it
      answered with `text`. */
  datatype GeneratorOutcome = NotConfigured | Failed | Produced(text: string)

  /** The non-empty stripped lines of the answer, once the answer itself is stripped. */
  function CleanLines(text: string): set<string> {
    var lines := Text.SplitOn(Text.Strip(text), '\n');
    set i | 0 <= i < |lines| && Text.Strip(lines[i]) != "" :: Text.Strip(lines[i])
  }

  /** `generate_multi_queries(job_description)`. Python returns `list(set(...))`, whose order
      is unspecified, so the result is the set of queries. */
  function GenerateMultiQueries(jobDescription: string, outcome: GeneratorOutcome): (r: set<string>)
    ensures !outcome.Produced? ==> r == {jobDescription}
    ensures outcome.Produced? ==> forall q :: q in r ==> |q| > 0 && Text.Trimmed(q) && '\n' !in q
  {
    match outcome
    case NotConfigured => {jobDescription}
    case Failed => {jobDescription}
    case Produced(text) =>
      var lines := Text.SplitOn(Text.Strip(text), '\n');
      assert forall i :: 0 <= i < |lines| ==> '\n' !in Text.Strip(lines[i]) by {
        forall i | 0 <= i < |lines| ensures '\n' !in Text.Strip(lines[i]) {
          Text.StripChars(lines[i], '\n');
        }
      }
      CleanLines(text)
  }

  /** Every query is a piece of the generator's answer: a line of it, stripped. This unfolds
      the definition of `CleanLines` into a membership test on the answer's own lines;
      `QueriesOccurInAnswer` and `CleanAnswerRoundTrip` state the properties. */
  lemma QueriesFromAnswer(jobDescription: string, text: string, q: string)
    ensures q in GenerateMultiQueries(jobDescription, Produced(text)) <==>
      exists line :: line in Text.SplitOn(Text.Strip(text), '\n') && Text.Strip(line) == q && q != ""
  {
    var lines := Text.SplitOn(Text.Strip(text), '\n');
    if exists line :: line in lines && Text.Strip(line) == q && q != "" {
      var line :| line in lines && Text.Strip(line) == q && q != "";
      var i :| 0 <= i < |lines| && lines[i] == line;
      assert Text.Strip(lines[i]) == q;
    }
  }

  /** Every query occurs verbatim in the generator's answer. */
  lemma {:induction false} QueriesOccurInAnswer(jobDescription: string, text: string, q: string)
    requires q in GenerateMultiQueries(jobDescription, Produced(text))
    ensures Text.Contains(text, q)
  {
    var stripped := Text.Strip(text);
    var lines := Text.SplitOn(stripped, '\n');
    var i :| 0 <= i < |lines| && Text.Strip(lines[i]) != "" && Text.Strip(lines[i]) == q;
    Text.StripContained(lines[i]);
    Text.SplitOnJoin(stripped, '\n');
    Text.JoinContainsPart(lines, "\n", i);
    Text.ContainsTrans(stripped, lines[i], q);
    Text.StripContained(text);
    Text.ContainsTrans(text, stripped, q);
  }

  /** An answer written one clean query per line gives back exactly those queries. */
  lemma {:induction false} CleanAnswerRoundTrip(jobDescription: string, queries: seq<string>)
    requires |queries| >= 1
    requires forall i :: 0 <= i < |queries| ==> |queries[i]| > 0 && Text.Trimmed(queries[i]) && '\n' !in queries[i]
    ensures GenerateMultiQueries(jobDescription, Produced(Text.Join(queries, "\n"))) == set i | 0 <= i < |queries| :: queries[i]
  {
    var text := Text.Join(queries, "\n");
    Text.JoinEnds(queries, "\n");
    assert Text.Trimmed(queries[0]) && Text.Trimmed(queries[|queries| - 1]);
    Text.StripTrimmed(text);
    Text.SplitJoin(queries, '\n');
    assert Text.SplitOn(Text.Strip(text), '\n') == queries;
    forall i | 0 <= i < |queries| ensures Text.Strip(queries[i]) == queries[i] {
      Text.StripTrimmed(queries[i]);
    }
  }
}

=== FILE: refinerreranker.dfy ===
/** `app/refiner/reranker.py`: the refiner's cross-encoder reranking. The cross-encoder is
    `predict`, the sigmoid normalisation is `normalize` and Python's rendering of the
    resulting float is `render`. */
module RefinerReranker {
  import Text
  import StableSort

  /** The fields of a candidate this reranker reads or writes; `candidateId` stands for the
      fields it leaves alone. */
  datatype Candidate = Candidate(candidateId: string, skillNames: seq<string>, matchScore: real, aiReasoningShort: string)

  function MatchKey(c: Candidate): real { c.matchScore }

  const ReasoningPrefix: string := "Score computed by Cross-Encoder: "

  /** `(job_description, " ".join(skill.name for skill in c.matching_skills))` per candidate. */
  function Pairs(jobDescription: string, cs: seq<Candidate>): (ps: seq<(string, string)>)
    ensures |ps| == |cs|
    ensures forall i :: 0 <= i < |cs| ==> ps[i] == (jobDescription, Text.Join(cs[i].skillNames, " "))
  {
    seq(|cs|, i requires 0 <= i < |cs| => (jobDescription, Text.Join(cs[i].skillNames, " ")))
  }

  /** The candidate once the model's score has been normalised and recorded. */
  function Rescore(c: Candidate, score: real, normalize: real -> real, render: real -> string): Candidate {
    var norm := normalize(score);
    c.(matchScore := norm, aiReasoningShort := ReasoningPrefix + render(norm))
  }

  /** The loop over `zip(candidates, scores)`: candidates past the last score keep their old
      score and reasoning. */
  function RescoreAll(cs: seq<Candidate>, scores: seq<real>, normalize: real -> real, render: real -> string): (us: seq<Candidate>)
    ensures |us| == |cs|
    ensures forall i :: 0 <= i < |cs| && i < |scores| ==> us[i] == Rescore(cs[i], scores[i], normalize, render)
    ensures forall i :: |scores| <= i < |cs| ==> us[i] == cs[i]
  {
    seq(|cs|, i requires 0 <= i < |cs| => if i < |scores| then Rescore(cs[i], scores[i], normalize, render) else cs[i])
  }

  /** `rerank_candidates(job_description, candidates)`: every candidate is kept, reordered by
      normalised score, highest first, ties in input order. */
  function RerankCandidates(jobDescription: string, cs: seq<Candidate>, predict: seq<(string, string)> -> seq<real>,
                            normalize: real -> real, render: real -> string): (r: seq<Candidate>)
    ensures |cs| == 0 ==> r == []
    ensures var us := RescoreAll(cs, predict(Pairs(jobDescription, cs)), normalize, render);
      && |r| == |cs|
      && multiset(r) == multiset(us)
      && StableSort.SortedDesc(r, MatchKey)
      && StableSort.Stable(us, r, MatchKey)
  {
    if |cs| == 0 then []
    else StableSort.Sort(RescoreAll(cs, predict(Pairs(jobDescription, cs)), normalize, render), MatchKey)
  }

  /** Every rescored candidate's reasoning names the score it was ranked by. */
  lemma {:induction false} ReasoningNamesScore(jobDescription: string, cs: seq<Candidate>, predict: seq<(string, string)> -> seq<real>,
                                               normalize: real -> real, render: real -> string, c: Candidate)
    requires |predict(Pairs(jobDescription, cs))| >= |cs|
    requires c in RerankCandidates(jobDescription, cs, predict, normalize, render)
    ensures c.aiReasoningShort == ReasoningPrefix + render(c.matchScore)
    ensures exists i :: 0 <= i < |cs| && c.matchScore == normalize(predict(Pairs(jobDescription, cs))[i])
  {
    var us := RescoreAll(cs, predict(Pairs(jobDescription, cs)), normalize, render);
    assert c in multiset(us);
    var i :| 0 <= i < |us| && us[i] == c;
  }

  /** The sigmoid is strictly increasing, so normalising does not reorder: a candidate ranked
      above another got at least as high a raw model score. */
  lemma {:induction false} RankedByModelScore(jobDescription: string, cs: seq<Candidate>, predict: seq<(string, string)> -> seq<real>,
                                              normalize: real -> real, render: real -> string, i: int, j: int, a: int, b: int)
    requires forall x, y :: x < y ==> normalize(x) < normalize(y)
    requires var scores := predict(Pairs(jobDescription, cs));
      && 0 <= a < |scores| && 0 <= b < |scores|
      && 0 <= i < j < |RerankCandidates(jobDescription, cs, predict, normalize, render)|
      && RerankCandidates(jobDescription, cs, predict, normalize, render)[i].matchScore == normalize(scores[a])
      && RerankCandidates(jobDescription, cs, predict, normalize, render)[j].matchScore == normalize(scores[b])
    ensures predict(Pairs(jobDescription, cs))[a] >= predict(Pairs(jobDescription, cs))[b]
  {
    var scores := predict(Pairs(jobDescription, cs));
    var r := RerankCandidates(jobDescription, cs, predict, normalize, render);
    assert MatchKey(r[i]) >= MatchKey(r[j]);
    var sa, sb := scores[a], scores[b];
    assert sa < sb ==> normalize(sa) < normalize(sb);
  }
}

=== FILE: reranker.dfy ===
/** `app/reranker.py`: cross-encoder reranking of retrieved candidates. The cross-encoder is
    the parameter `predict`, from the (query, content) pairs to one score per pair. */
module Reranker {
  import opened Results
  import opened Values
  import PySlice
  import StableSort

  /** A candidate dictionary: its `content` and its other keys. */
  datatype Candidate = Candidate(content: string, fields: Metadata)

  /** A candidate with its `rerank_score` key set. */
  datatype Ranked = Ranked(candidate: Candidate, rerankScore: real)

  function RankKey(r: Ranked): real { r.rerankScore }

  const DefaultTopK: int := 3

  /** `[[query, c['content']] for c in candidates]`. */
  function Pairs(query: string, cs: seq<Candidate>): (ps: seq<(string, string)>)
    ensures |ps| == |cs|
    ensures forall i :: 0 <= i < |cs| ==> ps[i] == (query, cs[i].content)
  {
    seq(|cs|, i requires 0 <= i < |cs| => (query, cs[i].content))
  }

  /** The loop `candidate['rerank_score'] = float(scores[i])`. */
  function Attach(cs: seq<Candidate>, scores: seq<real>): (rs: seq<Ranked>)
    requires |scores| >= |cs|
    ensures |rs| == |cs|
    ensures forall i :: 0 <= i < |cs| ==> rs[i] == Ranked(cs[i], scores[i])
  {
    seq(|cs|, i requires 0 <= i < |cs| => Ranked(cs[i], scores[i]))
  }

  /** `rerank_candidates(query, candidates, top_k)`. A model answering with fewer scores
      than candidates makes `scores[i]` raise `IndexError`; extra scores are ignored. */
  function RerankCandidates(query: string, cs: seq<Candidate>, predict: seq<(string, string)> -> seq<real>,
                            topK: int): (r: Result<seq<Ranked>>)
    ensures |cs| == 0 ==> r == Ok([])
    ensures r.Err? <==> |cs| > 0 && |predict(Pairs(query, cs))| < |cs|
    ensures r.Ok? && |cs| > 0 ==>
      var all := Attach(cs, predict(Pairs(query, cs)));
      && (topK >= 0 ==> |r.value| == PySlice.Min(topK, |cs|))
      && multiset(r.value) <= multiset(all)
      && StableSort.SortedDesc(r.value, RankKey)
      && StableSort.StablePrefix(all, r.value, RankKey)
  {
    if |cs| == 0 then Ok([])
    else
      var scores := predict(Pairs(query, cs));
      if |scores| < |cs| then Err("IndexError: index out of bounds")
      else
        var all := Attach(cs, scores);
        var sorted := StableSort.Sort(all, RankKey);
        var top := PySlice.Take(sorted, topK);
        StableSort.SortPrefixStable(all, |top|, RankKey);
        assert sorted == sorted[..|top|] + sorted[|top|..];
        Ok(top)
  }

  /** Each returned candidate is an input candidate carrying the score the model gave its
      own position. */
  lemma {:induction false} RerankScoresByPosition(query: string, cs: seq<Candidate>, predict: seq<(string, string)> -> seq<real>,
                                                  topK: int, i: int)
    requires RerankCandidates(query, cs, predict, topK).Ok?
    requires 0 <= i < |RerankCandidates(query, cs, predict, topK).value|
    ensures var scores := predict(Pairs(query, cs));
      exists j :: 0 <= j < |cs| && j < |scores| && RerankCandidates(query, cs, predict, topK).value[i] == Ranked(cs[j], scores[j])
  {
    var all := Attach(cs, predict(Pairs(query, cs)));
    var r := RerankCandidates(query, cs, predict, topK).value;
    assert r[i] in multiset(all);
    var j :| 0 <= j < |all| && all[j] == r[i];
  }

  /** A candidate left out scores no higher than any returned one. */
  lemma {:induction false} RerankKeepsBest(query: string, cs: seq<Candidate>, predict: seq<(string, string)> -> seq<real>,
                                           topK: int)
    requires |cs| > 0 && |predict(Pairs(query, cs))| >= |cs|
    ensures RerankCandidates(query, cs, predict, topK).Ok?
    ensures var r := RerankCandidates(query, cs, predict, topK).value;
      forall e, i :: e in Attach(cs, predict(Pairs(query, cs))) && e !in r && 0 <= i < |r| ==> r[i].rerankScore >= e.rerankScore
  {
    var all := Attach(cs, predict(Pairs(query, cs)));
    var r := RerankCandidates(query, cs, predict, topK).value;
    forall e | e in all && e !in r
      ensures forall i :: 0 <= i < |r| ==> r[i].rerankScore >= e.rerankScore
    {
      StableSort.SortPrefixDominates(all, |r|, RankKey, e);
    }
  }

  /** With the default `top_k` of 3 and at least three candidates, three are returned. */
  lemma DefaultReturnsThree(query: string, cs: seq<Candidate>, predict: seq<(string, string)> -> seq<real>)
    requires |cs| >= 3 && |predict(Pairs(query, cs))| >= |cs|
    ensures RerankCandidates(query, cs, predict, DefaultTopK).Ok?
    ensures |RerankCandidates(query, cs, predict, DefaultTopK).value| == 3
  {
  }
}

=== FILE: results.dfy ===
/** Option and Result values standing for Python's `None` and for raised exceptions. */
module Results {

  /** A value that may be absent (Python `Optional[...]`). */
  datatype Option<+T> = None | Some(value: T) {
    function GetOr(default: T): T {
      match this
      case Some(v) => v
      case None => default
    }
  }

  /** The outcome of a call that either returns a value or raises an exception with a message. */
  datatype Result<+T> = Ok(value: T) | Err(error: string)
}

=== FILE: scorer.dfy ===
/** `app/refiner/scorer.py`: the weighted 0–100 match score and the ranking by it. The scorer
    reads `semantic_score`, `matching_skills` and `match_score`, fields a `CandidateCard` does
    not declare, so it works on its own record. */
module Scorer {
  import StableSort

  /** What `ai_reasoning_short` holds: the text it came with, or the three terms the scorer
      formats into it. */
  datatype Reasoning = Given(text: string) | Breakdown(semantic: real, skills: real, experience: real)

  datatype Candidate = Candidate(
    candidateId: string,
    semanticScore: real,
    matchingSkills: seq<string>,
    yearsExperience: int,
    matchScore: int,
    aiReasoningShort: Reasoning)

  /** Python's `int(x)` on a float: truncation toward zero. */
  function Trunc(x: real): (n: int)
    ensures x >= 0.0 ==> n >= 0 && n as real <= x < n as real + 1.0
    ensures x < 0.0 ==> n <= 0 && n as real - 1.0 < x <= n as real
  {
    if x >= 0.0 then x.Floor else -((-x).Floor)
  }

  lemma TruncMonotone(a: real, b: real)
    requires a <= b
    ensures Trunc(a) <= Trunc(b)
  {
  }

  /** `min(len(matching_skills) / 5, 1)`. */
  function SkillsTerm(count: nat): (t: real)
    ensures 0.0 <= t <= 1.0
    ensures count >= 5 ==> t == 1.0
    ensures count < 5 ==> t * 5.0 == count as real
  {
    if count as real / 5.0 <= 1.0 then count as real / 5.0 else 1.0
  }

  /** `min(years_experience / 10, 1)`. */
  function ExperienceTerm(years: int): (t: real)
    ensures t <= 1.0
    ensures years >= 0 ==> 0.0 <= t
    ensures years >= 10 ==> t == 1.0
    ensures years < 10 ==> t * 10.0 == years as real
  {
    if years as real / 10.0 <= 1.0 then years as real / 10.0 else 1.0
  }

  /** The weighted sum before scaling. */
  function RawScore(semantic: real, skillCount: nat, years: int): real {
    0.5 * semantic + 0.3 * SkillsTerm(skillCount) + 0.2 * ExperienceTerm(years)
  }

  /** `int(final_score * 100)`. */
  function MatchScore(semantic: real, skillCount: nat, years: int): (s: int)
    ensures 0.0 <= semantic <= 1.0 && years >= 0 ==> 0 <= s <= 100
  {
    var raw := RawScore(semantic, skillCount, years);
    assert 0.0 <= semantic <= 1.0 && years >= 0 ==> 0.0 <= raw * 100.0 <= 100.0;
    Trunc(raw * 100.0)
  }

  /** Adding a matched skill, other inputs fixed, never lowers the score. */
  lemma {:induction false} MoreSkillsNeverLower(semantic: real, n1: nat, n2: nat, years: int)
    requires n1 <= n2
    ensures MatchScore(semantic, n1, years) <= MatchScore(semantic, n2, years)
  {
    assert SkillsTerm(n1) <= SkillsTerm(n2);
    TruncMonotone(RawScore(semantic, n1, years) * 100.0, RawScore(semantic, n2, years) * 100.0);
  }

  /** More years of experience, other inputs fixed, never lower the score. */
  lemma {:induction false} MoreYearsNeverLower(semantic: real, skillCount: nat, y1: int, y2: int)
    requires y1 <= y2
    ensures MatchScore(semantic, skillCount, y1) <= MatchScore(semantic, skillCount, y2)
  {
    assert ExperienceTerm(y1) <= ExperienceTerm(y2);
    TruncMonotone(RawScore(semantic, skillCount, y1) * 100.0, RawScore(semantic, skillCount, y2) * 100.0);
  }

  /** Past five skills and ten years only the semantic score moves the result. */
  lemma {:induction false} SaturatedTerms(semantic: real, skillCount: nat, years: int)
    requires skillCount >= 5 && years >= 10
    ensures MatchScore(semantic, skillCount, years) == Trunc(50.0 * semantic + 50.0)
  {
    assert RawScore(semantic, skillCount, years) * 100.0 == 50.0 * semantic + 50.0;
  }

  /** One pass of the loop body: the score and its breakdown are recorded on the candidate. */
  function Score(c: Candidate): Candidate {
    c.(matchScore := MatchScore(c.semanticScore, |c.matchingSkills|, c.yearsExperience),
       aiReasoningShort := Breakdown(c.semanticScore, SkillsTerm(|c.matchingSkills|), ExperienceTerm(c.yearsExperience)))
  }

  function ScoreAll(cs: seq<Candidate>): (us: seq<Candidate>)
    ensures |us| == |cs|
    ensures forall i :: 0 <= i < |cs| ==> us[i] == Score(cs[i])
  {
    seq(|cs|, i requires 0 <= i < |cs| => Score(cs[i]))
  }

  function ScoreKey(c: Candidate): real { c.matchScore as real }

  /** A candidate whose recorded score is the one its own fields give. */
  predicate Scored(c: Candidate) {
    c.matchScore == MatchScore(c.semanticScore, |c.matchingSkills|, c.yearsExperience)
  }

  /** `calculate_match_scores(candidates)`: every candidate scored, then all of them sorted
      by score, highest first, equal scores in input order. */
  function CalculateMatchScores(cs: seq<Candidate>): (r: seq<Candidate>)
    ensures |cs| == 0 ==> r == []
    ensures |r| == |cs|
    ensures multiset(r) == multiset(ScoreAll(cs))
    ensures forall i :: 0 <= i < |r| ==> Scored(r[i])
    ensures StableSort.SortedDesc(r, ScoreKey)
    ensures StableSort.Stable(ScoreAll(cs), r, ScoreKey)
  {
    if |cs| == 0 then []
    else
      var us := ScoreAll(cs);
      assert forall i :: 0 <= i < |us| ==> Scored(us[i]);
      StableSort.SortKeeps(us, ScoreKey, Scored);
      StableSort.Sort(us, ScoreKey)
  }

  /** With semantic scores in [0, 1] and non-negative experience, every score lies in
      [0, 100]. */
  lemma {:induction false} ScoresInRange(cs: seq<Candidate>)
    requires forall i :: 0 <= i < |cs| ==> 0.0 <= cs[i].semanticScore <= 1.0 && cs[i].yearsExperience >= 0
    ensures forall i :: 0 <= i < |CalculateMatchScores(cs)| ==> 0 <= CalculateMatchScores(cs)[i].matchScore <= 100
  {
    var us := ScoreAll(cs);
    var r := CalculateMatchScores(cs);
    forall i | 0 <= i < |r| ensures 0 <= r[i].matchScore <= 100 {
      assert r[i] in multiset(us);
      var j :| 0 <= j < |us| && us[j] == r[i];
    }
  }
}

=== FILE: search.dfy ===
/** `app/search.py`: query-variant parsing, hybrid retrieval merge and the combined search
    pipeline. The language model, the vector store and the BM25 retriever are parameters. */
module Search {
  import opened Results
  import opened Values
  import opened Models
  import Text
  import PySlice
  import Dedupe

  // ---------------------------------------------------------------- job input

  /** The `job` argument: a raw request, an already structured job, or anything else. */
  datatype JobInput =
    | FromRequest(request: JobDescriptionRequest)
    | FromJob(job: JobDescription)
    | Unsupported(typeName: string)

  /** Requests are parsed into a structured job (the parser is a language-model call,
      supplied as `parse`), structured jobs are used as they are, and any other input
      raises `ValueError`. */
  function ResolveJob(job: JobInput, parse: JobDescriptionRequest -> JobDescription): (r: Result<JobDescription>)
    ensures r.Err? <==> job.Unsupported?
    ensures job.FromJob? ==> r == Ok(job.job)
    ensures job.FromRequest? ==> r == Ok(parse(job.request))
  {
    match job
    case FromRequest(req) => Ok(parse(req))
    case FromJob(j) => Ok(j)
    case Unsupported(t) => Err("ValueError: Expected JobDescription or JobDescriptionRequest, got " + t)
  }

  // ---------------------------------------------------------------- variant parsing

  /** The variant read from one generator line: the text after its last colon, stripped. */
  function VariantOf(line: string): (v: string)
    ensures ':' !in v && Text.Trimmed(v)
    ensures '\n' !in line ==> '\n' !in v
  {
    var piece := Text.LastPiece(line, ':');
    var parts := Text.SplitOn(line, ':');
    Text.SplitOnJoin(line, ':');
    JoinContains(parts, ':', '\n');
    Text.StripChars(piece, ':');
    Text.StripChars(piece, '\n');
    Text.Strip(piece)
  }

  /** A line with a colon yields the text after its last colon, stripped. */
  lemma VariantAfterLastColon(line: string)
    requires ':' in line
    ensures exists i :: (0 <= i < |line| && line[i] == ':' && ':' !in line[i + 1..]
                         && VariantOf(line) == Text.Strip(line[i + 1..]))
  {
    Text.LastPieceAfterLastSep(line, ':');
  }

  /** `[q.split(":")[-1].strip() for q in lines if ":" in q]`. */
  function ParseLines(lines: seq<string>): (vs: seq<string>)
    ensures |vs| <= |lines|
    ensures forall i :: 0 <= i < |vs| ==> ':' !in vs[i] && Text.Trimmed(vs[i])
    ensures (forall i :: 0 <= i < |lines| ==> '\n' !in lines[i]) ==> forall i :: 0 <= i < |vs| ==> '\n' !in vs[i]
    ensures |vs| == 0 <==> forall i :: 0 <= i < |lines| ==> ':' !in lines[i]
  {
    if |lines| == 0 then []
    else
      var rest := ParseLines(lines[1..]);
      assert forall i :: 1 <= i < |lines| ==> lines[i] == lines[1..][i - 1];
      if ':' in lines[0] then [VariantOf(lines[0])] + rest else rest
  }

  /** Parsing respects line order: the variants of two blocks of lines are the variants of
      the first block followed by those of the second. */
  lemma {:induction false} ParseLinesAppend(a: seq<string>, b: seq<string>)
    ensures ParseLines(a + b) == ParseLines(a) + ParseLines(b)
    decreases |a|
  {
    if |a| == 0 {
      assert a + b == b;
    } else {
      assert (a + b)[1..] == a[1..] + b;
      ParseLinesAppend(a[1..], b);
    }
  }

  /** A single line yields its variant exactly when it contains a colon. */
  lemma ParseOneLine(line: string)
    ensures ParseLines([line]) == if ':' in line then [VariantOf(line)] else []
  {
    assert [line][1..] == [];
  }

  /** The variants parsed out of the generator's answer, one per line that holds a colon. */
  function ParseVariants(text: string): (vs: seq<string>)
    ensures forall i :: 0 <= i < |vs| ==> ':' !in vs[i] && '\n' !in vs[i] && Text.Trimmed(vs[i])
  {
    ParseLines(Text.SplitOn(text, '\n'))
  }

  lemma {:induction false} JoinContains(parts: seq<string>, sep: char, c: char)
    requires c != sep
    ensures c in Text.Join(parts, [sep]) <==> exists i :: 0 <= i < |parts| && c in parts[i]
    decreases |parts|
  {
    if |parts| > 1 {
      JoinContains(parts[1..], sep, c);
      assert forall i :: 1 <= i < |parts| ==> parts[i] == parts[1..][i - 1];
      var j := Text.Join(parts[1..], [sep]);
      assert c in parts[0] + [sep] + j <==> c in parts[0] || c in j;
      if c in j {
        var i :| 0 <= i < |parts[1..]| && c in parts[1..][i];
        assert c in parts[i + 1];
      }
    }
  }

  /** The generator's answer yields no variant exactly when it contains no colon at all. */
  lemma NoVariantsIff(text: string)
    ensures ParseVariants(text) == [] <==> ':' !in text
  {
    var lines := Text.SplitOn(text, '\n');
    Text.SplitOnJoin(text, '\n');
    JoinContains(lines, '\n', ':');
  }

  /** `f"{title} {', '.join(required_skills[:5])}"`: the variant used when the generator's
      answer has no usable line. */
  function FallbackVariant(job: JobDescription): string {
    job.title + " " + Text.Join(PySlice.Take(job.requiredSkills, 5), ", ")
  }

  /** `get_multi_query_variants(job, num_queries)`, the generator's answer supplied as
      `generated`. */
  function MultiQueryVariants(job: JobInput, parse: JobDescriptionRequest -> JobDescription,
                              generated: string, numQueries: int): (r: Result<seq<string>>)
    ensures r.Err? <==> job.Unsupported?
    ensures r.Ok? && numQueries >= 0 ==> |r.value| <= numQueries
    ensures r.Ok? && ':' in generated ==>
      forall i :: 0 <= i < |r.value| ==> ':' !in r.value[i] && '\n' !in r.value[i] && Text.Trimmed(r.value[i])
    ensures r.Ok? && ':' !in generated ==>
      r.value == PySlice.Take([FallbackVariant(ResolveJob(job, parse).value)], numQueries)
  {
    match ResolveJob(job, parse)
    case Err(e) => Err(e)
    case Ok(parsed) =>
      var variants := ParseVariants(generated);
      NoVariantsIff(generated);
      var chosen := if |variants| == 0 then [FallbackVariant(parsed)] else variants;
      Ok(PySlice.Take(chosen, numQueries))
  }

  /** With colon lines present, the variants are the parsed lines, truncated. */
  lemma VariantsFromColonLines(job: JobDescription, parse: JobDescriptionRequest -> JobDescription,
                               generated: string, numQueries: int)
    requires ':' in generated
    ensures MultiQueryVariants(FromJob(job), parse, generated, numQueries)
      == Ok(PySlice.Take(ParseVariants(generated), numQueries))
  {
    NoVariantsIff(generated);
  }

  // ---------------------------------------------------------------- hybrid merge

  datatype Document = Document(content: string, metadata: Metadata)

  function DocContent(d: Document): string { d.content }

  /** One entry of `hybrid_search`'s result. */
  datatype SearchHit = SearchHit(content: string, metadata: Metadata, initialScore: Value)

  function HitContent(h: SearchHit): string { h.content }

  /** `metadata.get('relevance_score', 0.0)`. */
  function InitialScore(meta: Metadata): Value {
    Get(meta, "relevance_score", VReal(0.0))
  }

  function ToHit(d: Document): SearchHit {
    SearchHit(d.content, d.metadata, InitialScore(d.metadata))
  }

  function ToHits(docs: seq<Document>): (hs: seq<SearchHit>)
    ensures |hs| == |docs|
    ensures forall i :: 0 <= i < |docs| ==> hs[i] == ToHit(docs[i])
  {
    seq(|docs|, i requires 0 <= i < |docs| => ToHit(docs[i]))
  }

  /** One of the two merge loops of `hybrid_search`: appends, in order, each document of
      `docs` whose content is not yet in `seen`, recording it as seen. */
  method AppendUnseen(ghost before: seq<Document>, docs: seq<Document>, seen0: set<string>, kept0: seq<Document>)
    returns (seen: set<string>, kept: seq<Document>)
    requires kept0 == Dedupe.Dedupe(before, DocContent)
    requires seen0 == Dedupe.KeySet(kept0, DocContent)
    ensures kept == Dedupe.Dedupe(before + docs, DocContent)
    ensures seen == Dedupe.KeySet(kept, DocContent)
  {
    seen, kept := seen0, kept0;
    assert before + docs[..0] == before;
    for i := 0 to |docs|
      invariant kept == Dedupe.Dedupe(before + docs[..i], DocContent)
      invariant seen == Dedupe.KeySet(kept, DocContent)
    {
      var doc := docs[i];
      assert before + docs[..i + 1] == (before + docs[..i]) + [doc];
      Dedupe.DedupeStep(before + docs[..i], doc, DocContent, kept, seen);
      if doc.content !in seen {
        seen := seen + {doc.content};
        kept := kept + [doc];
      }
    }
    assert docs[..|docs|] == docs;
  }

  /** What `hybrid_search` returns: the first `k_fetch` documents of the vector results
      followed by the keyword results, first seen content wins, each with its
      `initial_score`. */
  function HybridHits(vectorResults: seq<Document>, keywordResults: seq<Document>, kFetch: int): (hits: seq<SearchHit>)
    ensures kFetch >= 0 ==> |hits| <= kFetch
    ensures |vectorResults| > 0 && kFetch > 0 ==> |hits| > 0
    ensures forall i, j :: 0 <= i < j < |hits| ==> hits[i].content != hits[j].content
    ensures forall i :: 0 <= i < |hits| ==> hits[i].initialScore == Get(hits[i].metadata, "relevance_score", VReal(0.0))
  {
    var merged := Dedupe.Dedupe(vectorResults + keywordResults, DocContent);
    Dedupe.DedupeFirstSeen(vectorResults + keywordResults, DocContent);
    assert |vectorResults| > 0 ==> |merged| > 0 by {
      if |vectorResults| > 0 {
        Dedupe.DedupeNonEmpty(vectorResults + keywordResults, DocContent);
      }
    }
    var kept := PySlice.Take(merged, kFetch);
    assert forall i :: 0 <= i < |kept| ==> kept[i] == merged[i] && DocContent(kept[i]) == kept[i].content;
    ToHits(kept)
  }

  /** `hybrid_search` after retrieval: the two merge loops and the truncation to `k_fetch`. */
  method HybridSearch(vectorResults: seq<Document>, keywordResults: seq<Document>, kFetch: int)
    returns (hits: seq<SearchHit>)
    ensures hits == HybridHits(vectorResults, keywordResults, kFetch)
    ensures kFetch >= 0 ==> |hits| <= kFetch
    ensures forall i, j :: 0 <= i < j < |hits| ==> hits[i].content != hits[j].content
    ensures forall i :: 0 <= i < |hits| ==> hits[i].initialScore == Get(hits[i].metadata, "relevance_score", VReal(0.0))
  {
    var seen, finalDocs := AppendUnseen([], vectorResults, {}, []);
    assert [] + vectorResults == vectorResults;
    seen, finalDocs := AppendUnseen(vectorResults, keywordResults, seen, finalDocs);
    hits := ToHits(PySlice.Take(finalDocs, kFetch));
  }

  /** Vector results come first: an entry whose content the vector search returned precedes
      every entry found by keyword search alone, and is the vector search's own instance. */
  lemma HybridVectorFirst(vectorResults: seq<Document>, keywordResults: seq<Document>)
    ensures var r := Dedupe.Dedupe(vectorResults + keywordResults, DocContent);
      && (forall i, j :: 0 <= i < j < |r| && r[j].content in Dedupe.KeySet(vectorResults, DocContent) ==>
            r[i].content in Dedupe.KeySet(vectorResults, DocContent))
      && (forall i :: 0 <= i < |r| && r[i].content in Dedupe.KeySet(vectorResults, DocContent) ==>
            r[i] == vectorResults[Dedupe.FirstIndex(vectorResults, DocContent, r[i].content)])
  {
    Dedupe.FrontSourceFirst(vectorResults, keywordResults, DocContent);
  }

  /** `c` is the content of exactly one entry of `docs`. */
  ghost predicate OccursOnce(docs: seq<Document>, c: string) {
    exists i :: 0 <= i < |docs| && docs[i].content == c && NoneElse(docs, c, i)
  }

  ghost predicate NoneElse(docs: seq<Document>, c: string, i: int) {
    forall j :: 0 <= j < |docs| && j != i ==> docs[j].content != c
  }

  /** Before truncation, every distinct content of either result list appears exactly once. */
  lemma {:induction false} HybridCoverage(vectorResults: seq<Document>, keywordResults: seq<Document>, c: string)
    requires c in Dedupe.KeySet(vectorResults + keywordResults, DocContent)
    ensures OccursOnce(Dedupe.Dedupe(vectorResults + keywordResults, DocContent), c)
  {
    var r := Dedupe.Dedupe(vectorResults + keywordResults, DocContent);
    Dedupe.DedupeFirstSeen(vectorResults + keywordResults, DocContent);
    assert c in Dedupe.KeySet(r, DocContent);
    var i :| 0 <= i < |r| && DocContent(r[i]) == c;
    forall j | 0 <= j < |r| && j != i ensures r[j].content != c {
      assert DocContent(r[j]) == r[j].content;
      if j < i { assert DocContent(r[j]) != DocContent(r[i]); } else { assert DocContent(r[i]) != DocContent(r[j]); }
    }
    assert r[i].content == c && NoneElse(r, c, i);
  }

  /** The keyword retriever is built from the vector results themselves, so when it returns
      only documents of that corpus the merge is the deduplicated vector results alone. */
  lemma KeywordAddsNothing(vectorResults: seq<Document>, keywordResults: seq<Document>, kFetch: int)
    requires forall j :: 0 <= j < |keywordResults| ==> keywordResults[j] in vectorResults
    ensures ToHits(PySlice.Take(Dedupe.Dedupe(vectorResults + keywordResults, DocContent), kFetch))
         == ToHits(PySlice.Take(Dedupe.Dedupe(vectorResults, DocContent), kFetch))
  {
    forall k | k in Dedupe.KeySet(keywordResults, DocContent) ensures k in Dedupe.KeySet(vectorResults, DocContent) {
      var j :| 0 <= j < |keywordResults| && keywordResults[j].content == k;
      var i :| 0 <= i < |vectorResults| && vectorResults[i] == keywordResults[j];
    }
    Dedupe.CoveredSuffixAddsNothing(vectorResults, keywordResults, DocContent);
  }

  // ---------------------------------------------------------------- combined pipeline

  /** One entry of `combined_search_pipeline`'s result. */
  datatype SearchResult = SearchResult(content: string, metadata: Metadata, score: Value)

  function ToResult(h: SearchHit): SearchResult {
    SearchResult(h.content, h.metadata, h.initialScore)
  }

  function ToResults(hs: seq<SearchHit>): (rs: seq<SearchResult>)
    ensures |rs| == |hs|
    ensures forall i :: 0 <= i < |hs| ==> rs[i] == ToResult(hs[i])
  {
    seq(|hs|, i requires 0 <= i < |hs| => ToResult(hs[i]))
  }

  /** The second deduplication of `combined_search_pipeline` and its truncation to `k`. */
  method DedupeHits(hits: seq<SearchHit>, k: int) returns (results: seq<SearchResult>)
    ensures results == ToResults(PySlice.Take(Dedupe.Dedupe(hits, HitContent), k))
    ensures k >= 0 ==> |results| <= k
    ensures forall i, j :: 0 <= i < j < |results| ==> results[i].content != results[j].content
  {
    var seen: set<string> := {};
    var kept: seq<SearchHit> := [];
    for i := 0 to |hits|
      invariant kept == Dedupe.Dedupe(hits[..i], HitContent)
      invariant seen == Dedupe.KeySet(kept, HitContent)
    {
      var h := hits[i];
      assert hits[..i + 1] == hits[..i] + [h];
      Dedupe.DedupeStep(hits[..i], h, HitContent, kept, seen);
      if h.content !in seen {
        seen := seen + {h.content};
        kept := kept + [h];
      }
    }
    assert hits[..|hits|] == hits;
    Dedupe.DedupeFirstSeen(hits, HitContent);
    assert forall i :: 0 <= i < |kept| ==> HitContent(kept[i]) == kept[i].content;
    var prefix := PySlice.Take(kept, k);
    assert forall i :: 0 <= i < |prefix| ==> prefix[i] == kept[i];
    results := ToResults(prefix);
  }

  /** The hybrid hits already have distinct contents, so the second deduplication keeps
      them all: the pipeline's results are the first `k` hits, `initial_score` renamed `score`. */
  lemma SecondDedupeKeepsAll(vectorResults: seq<Document>, keywordResults: seq<Document>, kFetch: int)
    ensures var hits := HybridHits(vectorResults, keywordResults, kFetch);
      Dedupe.Dedupe(hits, HitContent) == hits
  {
    var hits := HybridHits(vectorResults, keywordResults, kFetch);
    assert forall i :: 0 <= i < |hits| ==> HitContent(hits[i]) == hits[i].content;
    assert Dedupe.DistinctKeys(hits, HitContent);
    Dedupe.DedupeDistinct(hits, HitContent);
  }

  /** `f"{title} " + " ".join(queries)`: the one query sent to both retrievers. */
  function CombinedQuery(title: string, queries: seq<string>): string {
    title + " " + Text.Join(queries, " ")
  }

  const KFetch: int := 15

  const NumQueries: int := 3

  /** The one query sent to both retrievers: the job title followed by its query variants
      (a request is parsed first); an unsupported job raises `ValueError`. */
  function PipelineQuery(job: JobInput, parse: JobDescriptionRequest -> JobDescription, generated: string)
    : (r: Result<string>)
    ensures r.Err? <==> job.Unsupported?
    ensures r.Ok? ==> exists qs :: (MultiQueryVariants(FromJob(ResolveJob(job, parse).value), parse, generated, NumQueries) == Ok(qs)
                                    && r.value == CombinedQuery(ResolveJob(job, parse).value.title, qs))
  {
    match ResolveJob(job, parse)
    case Err(e) => Err(e)
    case Ok(parsed) =>
      var queries := MultiQueryVariants(FromJob(parsed), parse, generated, NumQueries);
      Ok(CombinedQuery(parsed.title, queries.value))
  }

  /** The message of the `ValueError` that `BM25Retriever.from_documents` raises for an empty
      document list: it unpacks the zipped content, metadata and id columns, and an empty list
      has none. */
  const EmptyRetrieverCorpus: string := "not enough values to unpack (expected 3, got 0)"

  /** The vector store returns no documents for the pipeline's query. `hybrid_search` then
      builds its keyword retriever from an empty document list, which raises `ValueError`. */
  predicate EmptyCorpus(job: JobInput, parse: JobDescriptionRequest -> JobDescription, generated: string,
                        vectorSearch: (string, int) -> seq<Document>)
  {
    var query := PipelineQuery(job, parse, generated);
    query.Ok? && vectorSearch(query.value, KFetch) == []
  }

  /** What `combined_search_pipeline(job, k)` returns: the first `k` hybrid hits for the
      pipeline's query, `initial_score` carried as `score`. The vector retriever
      `(query, k) -> documents` and the keyword retriever `(corpus, query, k) -> documents`
      are supplied; the keyword retriever searches the vector results, as the source builds
      it. */
  function Pipeline(job: JobInput, k: int, parse: JobDescriptionRequest -> JobDescription, generated: string,
                    vectorSearch: (string, int) -> seq<Document>,
                    keywordSearch: (seq<Document>, string, int) -> seq<Document>): (r: Result<seq<SearchResult>>)
    ensures r.Err? <==> (job.Unsupported? || EmptyCorpus(job, parse, generated, vectorSearch))
    ensures EmptyCorpus(job, parse, generated, vectorSearch) ==> r == Err(EmptyRetrieverCorpus)
    ensures r.Ok? && k >= 0 ==> |r.value| <= k
    ensures r.Ok? && k > 0 ==> |r.value| > 0
    ensures r.Ok? ==> |r.value| <= KFetch
    ensures r.Ok? ==> forall i, j :: 0 <= i < j < |r.value| ==> r.value[i].content != r.value[j].content
    ensures r.Ok? ==> forall i :: 0 <= i < |r.value| ==> r.value[i].score == Get(r.value[i].metadata, "relevance_score", VReal(0.0))
  {
    match PipelineQuery(job, parse, generated)
    case Err(e) => Err(e)
    case Ok(query) =>
      var vectorResults := vectorSearch(query, KFetch);
      if vectorResults == [] then Err(EmptyRetrieverCorpus) else
      var hits := HybridHits(vectorResults, keywordSearch(vectorResults, query, KFetch), KFetch);
      var top := PySlice.Take(hits, k);
      assert forall i :: 0 <= i < |top| ==> top[i] == hits[i];
      Ok(ToResults(top))
  }

  /** `combined_search_pipeline(job, k)`: the hybrid search, then a second first-seen
      deduplication and the cut to `k`. */
  method CombinedSearchPipeline(
    job: JobInput, k: int,
    parse: JobDescriptionRequest -> JobDescription,
    generated: string,
    vectorSearch: (string, int) -> seq<Document>,
    keywordSearch: (seq<Document>, string, int) -> seq<Document>)
    returns (r: Result<seq<SearchResult>>)
    ensures r == Pipeline(job, k, parse, generated, vectorSearch, keywordSearch)
    ensures r.Err? <==> (job.Unsupported? || EmptyCorpus(job, parse, generated, vectorSearch))
    ensures r.Ok? ==> forall i, j :: 0 <= i < j < |r.value| ==> r.value[i].content != r.value[j].content
  {
    var query := PipelineQuery(job, parse, generated);
    if query.Err? {
      return Err(query.error);
    }
    var vectorResults := vectorSearch(query.value, KFetch);
    if vectorResults == [] {
      return Err(EmptyRetrieverCorpus);
    }
    var keywordResults := keywordSearch(vectorResults, query.value, KFetch);
    var hits := HybridSearch(vectorResults, keywordResults, KFetch);
    SecondDedupeKeepsAll(vectorResults, keywordResults, KFetch);
    var results := DedupeHits(hits, k);
    return Ok(results);
  }
}

=== FILE: stablesort.dfy ===
/** Python's `sorted(xs, key=..., reverse=True)`: a stable sort into descending key order.
    Stability is stated without positions: for every key value, the elements carrying that
    key appear in the output in the same order as in the input. */
module StableSort {

  ghost predicate SortedDesc<T>(xs: seq<T>, key: T -> real) {
    forall i, j :: 0 <= i < j < |xs| ==> key(xs[i]) >= key(xs[j])
  }

  /** The elements of `xs` whose key is `v`, in their order in `xs`. */
  function WithKey<T>(xs: seq<T>, key: T -> real, v: real): seq<T> {
    if |xs| == 0 then [] else (if key(xs[0]) == v then [xs[0]] else []) + WithKey(xs[1..], key, v)
  }

  /** `r` lists every key class of `xs` in the order `xs` lists it. */
  ghost predicate Stable<T>(xs: seq<T>, r: seq<T>, key: T -> real) {
    forall v :: WithKey(r, key, v) == WithKey(xs, key, v)
  }

  /** Inserts `x` into a descending sequence in front of every element whose key does not
      exceed its own. */
  function Insert<T>(x: T, s: seq<T>, key: T -> real): (r: seq<T>)
    requires SortedDesc(s, key)
    ensures multiset(r) == multiset(s) + multiset{x}
    ensures SortedDesc(r, key)
    ensures forall v :: WithKey(r, key, v) == (if key(x) == v then [x] else []) + WithKey(s, key, v)
  {
    if |s| == 0 || key(x) >= key(s[0]) then
      WithKeyCons(x, s, key);
      [x] + s
    else
      var rest := Insert(x, s[1..], key);
      InsertBehindHead(x, s, rest, key);
      [s[0]] + rest
  }

  lemma {:induction false} WithKeyCons<T>(x: T, s: seq<T>, key: T -> real)
    ensures forall v :: WithKey([x] + s, key, v) == (if key(x) == v then [x] else []) + WithKey(s, key, v)
  {
    assert ([x] + s)[1..] == s;
  }

  /** The recursive case of `Insert`: `x` goes behind a head whose key is larger. */
  lemma {:induction false} InsertBehindHead<T>(x: T, s: seq<T>, rest: seq<T>, key: T -> real)
    requires |s| > 0 && key(x) < key(s[0]) && SortedDesc(s, key)
    requires multiset(rest) == multiset(s[1..]) + multiset{x}
    requires SortedDesc(rest, key)
    requires forall v :: WithKey(rest, key, v) == (if key(x) == v then [x] else []) + WithKey(s[1..], key, v)
    ensures multiset([s[0]] + rest) == multiset(s) + multiset{x}
    ensures SortedDesc([s[0]] + rest, key)
    ensures forall v :: WithKey([s[0]] + rest, key, v) == (if key(x) == v then [x] else []) + WithKey(s, key, v)
  {
    assert s == [s[0]] + s[1..];
    HeadBoundsRest(x, s, rest, key);
    SortedCons(s[0], rest, key);
    WithKeyCons(s[0], rest, key);
    WithKeyCons(s[0], s[1..], key);
    forall v ensures WithKey([s[0]] + rest, key, v) == (if key(x) == v then [x] else []) + WithKey(s, key, v) {
      if key(s[0]) == v {
        assert WithKey([s[0]] + rest, key, v) == [s[0]] + WithKey(s[1..], key, v);
      } else if key(x) == v {
        assert WithKey([s[0]] + rest, key, v) == [x] + WithKey(s[1..], key, v);
      } else {
        assert WithKey([s[0]] + rest, key, v) == WithKey(s[1..], key, v);
      }
    }
  }

  lemma {:induction false} HeadBoundsRest<T>(x: T, s: seq<T>, rest: seq<T>, key: T -> real)
    requires |s| > 0 && key(x) < key(s[0]) && SortedDesc(s, key)
    requires multiset(rest) == multiset(s[1..]) + multiset{x}
    ensures forall i :: 0 <= i < |rest| ==> key(rest[i]) <= key(s[0])
  {
    forall i | 0 <= i < |rest| ensures key(rest[i]) <= key(s[0]) {
      var e := rest[i];
      assert e in multiset(rest);
      if e != x {
        assert e in multiset(s[1..]);
        var k :| 0 <= k < |s[1..]| && s[1..][k] == e;
        assert s[k + 1] == e;
      }
    }
  }

  lemma {:induction false} SortedCons<T>(h: T, t: seq<T>, key: T -> real)
    requires SortedDesc(t, key)
    requires forall i :: 0 <= i < |t| ==> key(t[i]) <= key(h)
    ensures SortedDesc([h] + t, key)
  {
    var r := [h] + t;
    forall i, j | 0 <= i < j < |r| ensures key(r[i]) >= key(r[j]) {
      assert r[j] == t[j - 1];
      if i > 0 { assert r[i] == t[i - 1]; }
    }
  }

  /** `sorted(xs, key=key, reverse=True)`. */
  function Sort<T>(xs: seq<T>, key: T -> real): (r: seq<T>)
    ensures |r| == |xs|
    ensures multiset(r) == multiset(xs)
    ensures SortedDesc(r, key)
    ensures Stable(xs, r, key)
  {
    if |xs| == 0 then []
    else
      var rest := Sort(xs[1..], key);
      assert xs == [xs[0]] + xs[1..];
      assert multiset(xs) == multiset{xs[0]} + multiset(xs[1..]);
      var r := Insert(xs[0], rest, key);
      assert |r| == |multiset(r)|;
      r
  }

  /** Every element of the sorted sequence is an element of the input, and conversely. */
  lemma {:induction false} SortMembers<T>(xs: seq<T>, key: T -> real, x: T)
    ensures x in Sort(xs, key) <==> x in xs
  {
    var r := Sort(xs, key);
    assert x in r <==> x in multiset(r);
    assert x in xs <==> x in multiset(xs);
  }

  /** A property every input element has, every sorted element has. */
  lemma SortKeeps<T>(xs: seq<T>, key: T -> real, p: T -> bool)
    requires forall i :: 0 <= i < |xs| ==> p(xs[i])
    ensures forall i :: 0 <= i < |Sort(xs, key)| ==> p(Sort(xs, key)[i])
  {
    var r := Sort(xs, key);
    forall i | 0 <= i < |r| ensures p(r[i]) {
      SortMembers(xs, key, r[i]);
    }
  }

  /** The sort only looks at how keys compare: two key functions that order the elements of
      `xs` the same way sort `xs` identically. */
  lemma {:induction false} SortOrderOnly<T>(xs: seq<T>, k1: T -> real, k2: T -> real)
    requires forall a, b :: a in xs && b in xs ==> (k1(a) >= k1(b) <==> k2(a) >= k2(b))
    ensures Sort(xs, k1) == Sort(xs, k2)
  {
    if |xs| > 0 {
      assert forall a :: a in xs[1..] ==> a in xs;
      SortOrderOnly(xs[1..], k1, k2);
      var s := Sort(xs[1..], k1);
      forall e | e in s ensures e in xs {
        SortMembers(xs[1..], k1, e);
      }
      InsertOrderOnly(xs[0], s, k1, k2, xs);
    }
  }

  lemma {:induction false} InsertOrderOnly<T>(x: T, s: seq<T>, k1: T -> real, k2: T -> real, universe: seq<T>)
    requires SortedDesc(s, k1) && SortedDesc(s, k2)
    requires x in universe && forall e :: e in s ==> e in universe
    requires forall a, b :: a in universe && b in universe ==> (k1(a) >= k1(b) <==> k2(a) >= k2(b))
    ensures Insert(x, s, k1) == Insert(x, s, k2)
  {
    if |s| > 0 && !(k1(x) >= k1(s[0])) {
      assert s[0] in s;
      assert forall e :: e in s[1..] ==> e in s;
      InsertOrderOnly(x, s[1..], k1, k2, universe);
    } else if |s| > 0 {
      assert s[0] in s;
    }
  }

  /** A prefix keeps each key class in order: the elements of `xs[..n]` carrying a key are
      the first few of those of `xs`. */
  lemma {:induction false} WithKeyPrefix<T>(xs: seq<T>, n: nat, key: T -> real, v: real)
    requires n <= |xs|
    ensures WithKey(xs[..n], key, v) <= WithKey(xs, key, v)
    decreases n
  {
    if n > 0 {
      assert xs[..n][0] == xs[0];
      assert xs[..n][1..] == xs[1..][..n - 1];
      WithKeyPrefix(xs[1..], n - 1, key, v);
    }
  }

  /** The first `n` sorted elements, with ties in input order. */
  ghost predicate StablePrefix<T>(xs: seq<T>, r: seq<T>, key: T -> real) {
    forall v :: WithKey(r, key, v) <= WithKey(xs, key, v)
  }

  /** Cutting the sorted sequence after `n` elements keeps stability. */
  lemma {:induction false} SortPrefixStable<T>(xs: seq<T>, n: nat, key: T -> real)
    requires n <= |xs|
    ensures StablePrefix(xs, Sort(xs, key)[..n], key)
  {
    var s := Sort(xs, key);
    forall v ensures WithKey(s[..n], key, v) <= WithKey(xs, key, v) {
      WithKeyPrefix(s, n, key, v);
    }
  }

  /** Top-`n` selection: an element of `xs` that is not among the first `n` sorted elements
      scores no higher than any of them. */
  lemma {:induction false} SortPrefixDominates<T>(xs: seq<T>, n: nat, key: T -> real, e: T)
    requires n <= |xs|
    requires e in xs && e !in Sort(xs, key)[..n]
    ensures forall i :: 0 <= i < n ==> key(Sort(xs, key)[i]) >= key(e)
  {
    var s := Sort(xs, key);
    SortMembers(xs, key, e);
    var j :| 0 <= j < |s| && s[j] == e;
    assert forall k :: 0 <= k < n ==> s[..n][k] == s[k];
  }
}

=== FILE: text.dfy ===
/** The string operations the matcher applies to text: lowering, stripping, splitting,
    joining and substring search, with Python's `str` semantics. */
module Text {

  /** Python's `str.isspace()` on the Latin-1 range. */
  predicate IsSpace(c: char) {
    c == ' ' || c == '\t' || c == '\n' || c == '\r' || c == '\U{000B}' || c == '\U{000C}'
    || ('\U{001C}' <= c <= '\U{001F}') || c == '\U{0085}' || c == '\U{00A0}'
  }

  predicate NoSpace(s: string) {
    forall i :: 0 <= i < |s| ==> !IsSpace(s[i])
  }

  predicate AllSpace(s: string) {
    forall i :: 0 <= i < |s| ==> IsSpace(s[i])
  }

  /** No whitespace at either end. */
  predicate Trimmed(s: string) {
    |s| > 0 ==> !IsSpace(s[0]) && !IsSpace(s[|s| - 1])
  }

  // ---------------------------------------------------------------- lower-casing

  function LowerChar(c: char): char {
    if 'A' <= c <= 'Z' then (c as int + 32) as char else c
  }

  /** `str.lower()` on ASCII letters. */
  function Lower(s: string): (r: string)
    ensures |r| == |s|
    ensures forall i :: 0 <= i < |s| ==> r[i] == LowerChar(s[i])
    ensures forall i :: 0 <= i < |r| ==> !('A' <= r[i] <= 'Z')
  {
    seq(|s|, i requires 0 <= i < |s| => LowerChar(s[i]))
  }

  /** Lower-casing twice is lower-casing once. */
  lemma LowerIdempotent(s: string)
    ensures Lower(Lower(s)) == Lower(s)
  {
  }

  // ---------------------------------------------------------------- stripping

  /** Number of leading whitespace characters. */
  function LeadingSpaces(s: string): (n: nat)
    ensures n <= |s|
    ensures AllSpace(s[..n])
    ensures n < |s| ==> !IsSpace(s[n])
  {
    if |s| == 0 || !IsSpace(s[0]) then 0 else 1 + LeadingSpaces(s[1..])
  }

  /** Length of `s` once its trailing whitespace is removed. */
  function TrailingStart(s: string): (n: nat)
    ensures n <= |s|
    ensures AllSpace(s[n..])
    ensures n > 0 ==> !IsSpace(s[n - 1])
  {
    if |s| == 0 || !IsSpace(s[|s| - 1]) then |s| else TrailingStart(s[..|s| - 1])
  }

  /** `str.strip()`: `s` without its leading and trailing whitespace. */
  function Strip(s: string): (r: string)
    ensures Trimmed(r) && |r| <= |s|
  {
    var a := LeadingSpaces(s);
    var t := s[a..];
    var b := TrailingStart(t);
    if b > 0 then assert !IsSpace(t[0]); t[..b] else t[..b]
  }

  /** The strip is the middle of the input, with only whitespace around it. */
  lemma {:induction false} StripSlice(s: string)
    ensures var r := Strip(s); var a := LeadingSpaces(s);
      && a + |r| <= |s|
      && r == s[a..a + |r|]
      && AllSpace(s[..a]) && AllSpace(s[a + |r|..])
  {
    var a := LeadingSpaces(s);
    var t := s[a..];
    var b := TrailingStart(t);
    assert t[b..] == s[a + b..];
  }

  /** The strip of a string is empty exactly when the string is all whitespace. */
  lemma {:induction false} StripEmptyIff(s: string)
    ensures Strip(s) == [] <==> AllSpace(s)
  {
    StripSlice(s);
    var a := LeadingSpaces(s);
    if a < |s| {
      assert Strip(s)[0] == s[a];
    } else {
      assert s[..a] == s;
    }
  }

  /** A string with no surrounding whitespace is its own strip. */
  lemma {:induction false} StripTrimmed(s: string)
    requires Trimmed(s)
    ensures Strip(s) == s
  {
    assert LeadingSpaces(s) == 0;
    assert TrailingStart(s) == |s|;
  }

  /** Stripping is idempotent. */
  lemma StripIdempotent(s: string)
    ensures Strip(Strip(s)) == Strip(s)
  {
    StripTrimmed(Strip(s));
  }

  /** Stripping never introduces a character: every character of the strip occurs in the input. */
  lemma StripChars(s: string, c: char)
    ensures c in Strip(s) ==> c in s
  {
    StripSlice(s);
    var a := LeadingSpaces(s);
    var r := Strip(s);
    assert forall i :: 0 <= i < |r| ==> r[i] == s[a + i];
  }

  // ---------------------------------------------------------------- joining and splitting

  /** `sep.join(parts)`. */
  function Join(parts: seq<string>, sep: string): string {
    if |parts| == 0 then ""
    else if |parts| == 1 then parts[0]
    else parts[0] + sep + Join(parts[1..], sep)
  }

  /** Index of the first `c` in `s`, or `|s|` when there is none. */
  function IndexOf(s: string, c: char): (i: nat)
    ensures i <= |s|
    ensures c !in s[..i]
    ensures i < |s| ==> s[i] == c
  {
    if |s| == 0 then 0 else if s[0] == c then 0 else 1 + IndexOf(s[1..], c)
  }

  /** A join of non-empty parts starts with the first part's first character and ends with
      the last part's last character. */
  lemma {:induction false} JoinEnds(parts: seq<string>, sep: string)
    requires |parts| >= 1
    requires forall i :: 0 <= i < |parts| ==> |parts[i]| > 0
    ensures var j := Join(parts, sep);
      |j| > 0 && j[0] == parts[0][0] && j[|j| - 1] == parts[|parts| - 1][|parts[|parts| - 1]| - 1]
    decreases |parts|
  {
    if |parts| > 1 {
      var tail := parts[1..];
      assert forall i :: 0 <= i < |tail| ==> tail[i] == parts[i + 1];
      JoinEnds(tail, sep);
      var jt := Join(tail, sep);
      var j := parts[0] + sep + jt;
      assert Join(parts, sep) == j;
      assert j[0] == parts[0][0];
      assert j[|j| - 1] == jt[|jt| - 1];
      assert tail[|tail| - 1] == parts[|parts| - 1];
    }
  }

  /** `s.split(sep)` for a one-character separator: the maximal separator-free pieces,
      joining back to `s`. */
  function SplitOn(s: string, sep: char): (parts: seq<string>)
    ensures |parts| >= 1
    ensures forall i :: 0 <= i < |parts| ==> sep !in parts[i]
    decreases |s|
  {
    var i := IndexOf(s, sep);
    if i == |s| then
      assert s[..i] == s;
      [s]
    else [s[..i]] + SplitOn(s[i + 1..], sep)
  }

  /** The pieces, joined with the separator, give the input back. */
  lemma {:induction false} SplitOnJoin(s: string, sep: char)
    ensures Join(SplitOn(s, sep), [sep]) == s
    decreases |s|
  {
    var i := IndexOf(s, sep);
    if i == |s| {
      assert s[..i] == s;
    } else {
      var rest := SplitOn(s[i + 1..], sep);
      SplitOnJoin(s[i + 1..], sep);
      JoinCons(s[..i], rest, [sep]);
      assert s == s[..i] + [sep] + s[i + 1..];
    }
  }

  lemma JoinCons(p: string, rest: seq<string>, sep: string)
    requires |rest| >= 1
    ensures Join([p] + rest, sep) == p + sep + Join(rest, sep)
  {
    assert ([p] + rest)[0] == p && ([p] + rest)[1..] == rest;
  }

  /** Splitting a join on a separator the parts do not contain gives the parts back. */
  lemma {:induction false} SplitJoin(parts: seq<string>, sep: char)
    requires |parts| >= 1
    requires forall i :: 0 <= i < |parts| ==> sep !in parts[i]
    ensures SplitOn(Join(parts, [sep]), sep) == parts
    decreases |parts|
  {
    if |parts| == 1 {
      assert IndexOf(parts[0], sep) == |parts[0]|;
      assert parts[0][..|parts[0]|] == parts[0];
    } else {
      var tail := parts[1..];
      assert forall i :: 0 <= i < |tail| ==> tail[i] == parts[i + 1];
      SplitJoin(tail, sep);
      JoinCons(parts[0], tail, [sep]);
      SplitAfter(parts[0], Join(tail, [sep]), sep);
      assert parts == [parts[0]] + tail;
    }
  }

  /** A separator-free piece followed by the separator splits off as the first piece. */
  lemma {:induction false} SplitAfter(p: string, t: string, sep: char)
    requires sep !in p
    ensures SplitOn(p + [sep] + t, sep) == [p] + SplitOn(t, sep)
  {
    var s := p + [sep] + t;
    assert s == p + ([sep] + t);
    IndexOfPrefix(p, [sep] + t, sep);
    assert s[..|p|] == p;
    assert s[|p| + 1..] == t;
  }

  lemma {:induction false} IndexOfPrefix(p: string, rest: string, c: char)
    requires c !in p && |rest| > 0 && rest[0] == c
    ensures IndexOf(p + rest, c) == |p|
    decreases |p|
  {
    if |p| > 0 {
      assert (p + rest)[1..] == p[1..] + rest;
      IndexOfPrefix(p[1..], rest, c);
    }
  }

  /** `s.split(sep)[-1]`: the piece after the last separator. */
  function LastPiece(s: string, sep: char): (r: string)
    ensures sep !in r
  {
    var parts := SplitOn(s, sep);
    assert sep !in parts[|parts| - 1];
    Last(parts)
  }

  /** `xs[-1]`. */
  function Last<T>(xs: seq<T>): T
    requires |xs| > 0
  {
    xs[|xs| - 1]
  }

  /** The last piece is what follows the last separator, or the whole input when there is
      no separator. */
  lemma {:induction false} LastPieceAfterLastSep(s: string, sep: char)
    ensures sep !in s ==> LastPiece(s, sep) == s
    ensures sep in s ==> exists i :: 0 <= i < |s| && s[i] == sep && sep !in s[i + 1..] && LastPiece(s, sep) == s[i + 1..]
    decreases |s|
  {
    var i := IndexOf(s, sep);
    if i == |s| {
      assert s[..i] == s;
    } else {
      var t := s[i + 1..];
      LastPieceCons(s, sep);
      LastPieceAfterLastSep(t, sep);
      if sep !in t {
        assert s[i] == sep && sep !in s[i + 1..] && LastPiece(s, sep) == s[i + 1..];
      } else {
        var j :| 0 <= j < |t| && t[j] == sep && sep !in t[j + 1..] && LastPiece(t, sep) == t[j + 1..];
        ShiftSuffix(s, i + 1, j);
      }
    }
  }

  /** An index into the suffix `s[k..]`, seen from `s`. */
  lemma ShiftSuffix(s: string, k: nat, j: nat)
    requires k + j < |s|
    ensures s[k..][j] == s[k + j] && s[k..][j + 1..] == s[k + j + 1..]
  {
  }

  /** Past the first separator, the last piece is the last piece of the remainder. */
  lemma LastPieceCons(s: string, sep: char)
    requires IndexOf(s, sep) < |s|
    ensures LastPiece(s, sep) == LastPiece(s[IndexOf(s, sep) + 1..], sep)
  {
    var i := IndexOf(s, sep);
    SplitStep(s, sep);
    LastPieceOfCons(s, s[i + 1..], sep, s[..i]);
  }

  /** When the split of `s` is one piece followed by the split of `t`, both end alike. */
  lemma LastPieceOfCons(s: string, t: string, sep: char, head: string)
    requires SplitOn(s, sep) == [head] + SplitOn(t, sep)
    ensures LastPiece(s, sep) == LastPiece(t, sep)
  {
    LastOfCons(head, SplitOn(t, sep));
  }

  lemma SplitStep(s: string, sep: char)
    requires IndexOf(s, sep) < |s|
    ensures SplitOn(s, sep) == [s[..IndexOf(s, sep)]] + SplitOn(s[IndexOf(s, sep) + 1..], sep)
  {
  }

  lemma LastOfCons<T>(x: T, rest: seq<T>)
    requires |rest| > 0
    ensures Last([x] + rest) == Last(rest)
  {
    assert ([x] + rest)[|rest|] == rest[|rest| - 1];
  }

  /** Index of the first whitespace character in `s`, or `|s|`. */
  function WordEnd(s: string): (n: nat)
    ensures n <= |s|
    ensures NoSpace(s[..n])
    ensures n < |s| ==> IsSpace(s[n])
  {
    if |s| == 0 || IsSpace(s[0]) then 0 else 1 + WordEnd(s[1..])
  }

  /** `s.split()`: the maximal runs of non-whitespace characters, in order. */
  function Words(s: string): (ws: seq<string>)
    ensures forall i :: 0 <= i < |ws| ==> |ws[i]| > 0 && NoSpace(ws[i])
    decreases |s|
  {
    var a := LeadingSpaces(s);
    if a == |s| then []
    else
      var rest := s[a..];
      var w := WordEnd(rest);
      [rest[..w]] + Words(rest[w..])
  }

  /** `" ".join(ws).split() == ws` for non-empty, whitespace-free words: the split points
      are exactly the whitespace runs. */
  lemma {:induction false} WordsJoin(ws: seq<string>)
    requires forall i :: 0 <= i < |ws| ==> |ws[i]| > 0 && NoSpace(ws[i])
    ensures Words(Join(ws, " ")) == ws
    decreases |ws|
  {
    if |ws| == 0 {
      assert LeadingSpaces("") == 0;
    } else {
      var w := ws[0];
      var s := Join(ws, " ");
      var tail := if |ws| == 1 then "" else " " + Join(ws[1..], " ");
      assert s == w + tail;
      assert s[0] == w[0];
      assert LeadingSpaces(s) == 0;
      assert s[0..] == s;
      WordEndAt(w, tail);
      assert s[..|w|] == w && s[|w|..] == tail;
      if |ws| == 1 {
        assert LeadingSpaces(tail) == 0;
      } else {
        var rest := ws[1..];
        assert forall i :: 0 <= i < |rest| ==> rest[i] == ws[i + 1];
        WordsJoin(rest);
        JoinEnds(rest, " ");
        WordsSkipSpace(Join(rest, " "));
        assert ws == [w] + rest;
      }
    }
  }

  /** A word runs up to the first whitespace. */
  lemma WordEndAt(p: string, r: string)
    requires NoSpace(p) && (|r| == 0 || IsSpace(r[0]))
    ensures WordEnd(p + r) == |p|
  {
    var s := p + r;
    var n := WordEnd(s);
    assert forall j :: 0 <= j < n ==> !IsSpace(s[j]) by {
      assert forall j :: 0 <= j < n ==> s[..n][j] == s[j];
    }
    assert forall j :: 0 <= j < |p| ==> s[j] == p[j];
    assert |r| > 0 ==> s[|p|] == r[0];
  }

  /** One space in front of a word changes nothing. */
  lemma WordsSkipSpace(t: string)
    requires |t| > 0 && !IsSpace(t[0])
    ensures Words(" " + t) == Words(t)
  {
    var s := " " + t;
    var n := LeadingSpaces(s);
    assert s[0] == ' ' && s[1] == t[0];
    assert forall j :: 0 <= j < n ==> IsSpace(s[j]) by {
      assert forall j :: 0 <= j < n ==> s[..n][j] == s[j];
    }
    assert n == 1;
    assert s[1..] == t;
    assert LeadingSpaces(t) == 0;
    assert t[0..] == t;
  }

  /** Lower-casing works character by character, so it distributes over concatenation. */
  lemma LowerAppend(a: string, b: string)
    ensures Lower(a + b) == Lower(a) + Lower(b)
  {
    assert forall i :: 0 <= i < |a + b| ==> Lower(a + b)[i] == (Lower(a) + Lower(b))[i];
  }

  /** Lower-case words joined with spaces are already lower case. */
  lemma {:induction false} LowerJoin(ws: seq<string>)
    requires forall i :: 0 <= i < |ws| ==> Lower(ws[i]) == ws[i]
    ensures Lower(Join(ws, " ")) == Join(ws, " ")
    decreases |ws|
  {
    if |ws| == 0 {
    } else if |ws| == 1 {
      assert Lower(ws[0]) == ws[0];
    } else {
      var rest := ws[1..];
      assert forall i :: 0 <= i < |rest| ==> rest[i] == ws[i + 1];
      LowerJoin(rest);
      LowerAppend(ws[0] + " ", Join(rest, " "));
      LowerAppend(ws[0], " ");
      assert Lower(" ") == " ";
      assert Lower(ws[0]) == ws[0];
    }
  }

  /** `s` with every whitespace character removed. */
  function Squeeze(s: string): string {
    if |s| == 0 then "" else (if IsSpace(s[0]) then "" else [s[0]]) + Squeeze(s[1..])
  }

  function Concat(parts: seq<string>): string {
    if |parts| == 0 then "" else parts[0] + Concat(parts[1..])
  }

  lemma {:induction false} SqueezeAppend(a: string, b: string)
    ensures Squeeze(a + b) == Squeeze(a) + Squeeze(b)
    decreases |a|
  {
    if |a| > 0 {
      assert (a + b)[1..] == a[1..] + b;
      SqueezeAppend(a[1..], b);
    } else {
      assert a + b == b;
    }
  }

  lemma {:induction false} SqueezeAllSpace(s: string)
    requires AllSpace(s)
    ensures Squeeze(s) == ""
    decreases |s|
  {
    if |s| > 0 { SqueezeAllSpace(s[1..]); }
  }

  lemma {:induction false} SqueezeNoSpace(s: string)
    requires NoSpace(s)
    ensures Squeeze(s) == s
    decreases |s|
  {
    if |s| > 0 { SqueezeNoSpace(s[1..]); }
  }

  /** Splitting on whitespace loses exactly the whitespace: the words, concatenated,
      are the input with its whitespace removed. */
  lemma {:induction false} WordsKeepAllText(s: string)
    ensures Concat(Words(s)) == Squeeze(s)
    decreases |s|
  {
    var a := LeadingSpaces(s);
    assert Squeeze(s) == Squeeze(s[a..]) by {
      assert s == s[..a] + s[a..];
      SqueezeAppend(s[..a], s[a..]);
      SqueezeAllSpace(s[..a]);
    }
    if a < |s| {
      var rest := s[a..];
      var w := WordEnd(rest);
      assert Squeeze(rest) == rest[..w] + Squeeze(rest[w..]) by {
        assert rest == rest[..w] + rest[w..];
        SqueezeAppend(rest[..w], rest[w..]);
        SqueezeNoSpace(rest[..w]);
      }
      WordsKeepAllText(rest[w..]);
      ConcatCons(rest[..w], Words(rest[w..]));
    }
  }

  lemma ConcatCons(x: string, xs: seq<string>)
    ensures Concat([x] + xs) == x + Concat(xs)
  {
    assert ([x] + xs)[0] == x && ([x] + xs)[1..] == xs;
  }

  // ---------------------------------------------------------------- substring search

  predicate IsPrefix(p: string, s: string) {
    |p| <= |s| && s[..|p|] == p
  }

  /** Python's `needle in hay` on strings. */
  predicate Contains(hay: string, needle: string) {
    exists i :: 0 <= i <= |hay| && IsPrefix(needle, hay[i..])
  }

  /** Every string contains itself, so equal strings are always a substring match. */
  lemma ContainsSelf(s: string)
    ensures Contains(s, s)
  {
    assert IsPrefix(s, s[0..]);
  }

  /** A string occurs inside any string built around it. */
  lemma {:induction false} ContainsInfix(a: string, b: string, c: string)
    ensures Contains(a + b + c, b)
  {
    var s := a + b + c;
    assert s[|a|..][..|b|] == b;
  }

  /** Substring search is transitive. */
  lemma {:induction false} ContainsTrans(a: string, b: string, c: string)
    requires Contains(a, b) && Contains(b, c)
    ensures Contains(a, c)
  {
    var i :| 0 <= i <= |a| && IsPrefix(b, a[i..]);
    var j :| 0 <= j <= |b| && IsPrefix(c, b[j..]);
    assert |c| <= |b| - j && |b| <= |a| - i;
    assert forall k :: 0 <= k < |c| ==> c[k] == b[j + k] == a[i + j + k];
    assert IsPrefix(c, a[i + j..]);
  }

  /** The strip of a string occurs inside it. */
  lemma {:induction false} StripContained(s: string)
    ensures Contains(s, Strip(s))
  {
    StripSlice(s);
    var a := LeadingSpaces(s);
    var r := Strip(s);
    assert s == s[..a] + r + s[a + |r|..];
    ContainsInfix(s[..a], r, s[a + |r|..]);
  }

  /** Every part of a join occurs inside the joined string. */
  lemma {:induction false} JoinContainsPart(parts: seq<string>, sep: string, i: int)
    requires 0 <= i < |parts|
    ensures Contains(Join(parts, sep), parts[i])
    decreases |parts|
  {
    if |parts| == 1 {
      ContainsInfix("", parts[0], "");
      assert "" + parts[0] + "" == parts[0];
    } else {
      var tail := Join(parts[1..], sep);
      assert Join(parts, sep) == parts[0] + sep + tail;
      if i == 0 {
        ContainsInfix("", parts[0], sep + tail);
        assert "" + parts[0] + (sep + tail) == parts[0] + sep + tail;
      } else {
        JoinContainsPart(parts[1..], sep, i - 1);
        ContainsInfix(parts[0] + sep, tail, "");
        assert parts[0] + sep + tail + "" == parts[0] + sep + tail;
        ContainsTrans(Join(parts, sep), tail, parts[i]);
      }
    }
  }

  // ---------------------------------------------------------------- integers

  function DigitChar(d: int): char
    requires 0 <= d < 10
  {
    ('0' as int + d) as char
  }

  /** Decimal digits of a natural number, without leading zeros. */
  function NatToDecimal(n: nat): (r: string)
    ensures |r| >= 1
    ensures forall i :: 0 <= i < |r| ==> '0' <= r[i] <= '9'
    ensures |r| > 1 ==> r[0] != '0'
  {
    if n < 10 then [DigitChar(n)] else NatToDecimal(n / 10) + [DigitChar(n % 10)]
  }

  /** `str(i)` for a Python `int`. */
  function IntToDecimal(i: int): string {
    if i >= 0 then NatToDecimal(i) else "-" + NatToDecimal(-i)
  }

  /** Reads a string of decimal digits back as a number. */
  function DecimalValue(s: string): int
    requires forall i :: 0 <= i < |s| ==> '0' <= s[i] <= '9'
  {
    if |s| == 0 then 0 else 10 * DecimalValue(s[..|s| - 1]) + (s[|s| - 1] as int - '0' as int)
  }

  /** Rendering a number in decimal loses nothing: reading it back gives the number. */
  lemma {:induction false} DecimalRoundTrip(n: nat)
    ensures DecimalValue(NatToDecimal(n)) == n
  {
    if n >= 10 {
      var r := NatToDecimal(n);
      assert r[..|r| - 1] == NatToDecimal(n / 10);
      DecimalRoundTrip(n / 10);
    }
  }
}

=== FILE: values.dfy ===
/** Loosely typed metadata values as they arrive from the vector store, and the Python
    conversions the matcher applies to them: `dict.get`, `str()`, `float()` and the field
    coercions pydantic performs when a model is built. */
module Values {
  import opened Results
  import Text

  datatype Value =
    | VNone
    | VBool(b: bool)
    | VInt(i: int)
    | VReal(r: real)
    | VStr(s: string)
    | VList(items: seq<Value>)

  type Metadata = map<string, Value>

  /** `meta.get(k, default)`. */
  function Get(meta: Metadata, k: string, default: Value): (v: Value)
    ensures k in meta ==> v == meta[k]
    ensures k !in meta ==> v == default
  {
    if k in meta then meta[k] else default
  }

  /** `str(v)`. Python's text for floats and lists is its `repr`, supplied as `render`. */
  function PyStr(v: Value, render: Value -> string): string {
    match v
    case VNone => "None"
    case VBool(b) => if b then "True" else "False"
    case VInt(i) => Text.IntToDecimal(i)
    case VStr(s) => s
    case VReal(_) => render(v)
    case VList(_) => render(v)
  }

  /** `float(v)`. Parsing a numeric string is Python's float grammar, supplied as `parseFloat`;
      `None` and lists raise. */
  function PyFloat(v: Value, parseFloat: string -> Option<real>): Result<real> {
    match v
    case VBool(b) => Ok(if b then 1.0 else 0.0)
    case VInt(i) => Ok(i as real)
    case VReal(r) => Ok(r)
    case VStr(s) =>
      (match parseFloat(s)
       case Some(r) => Ok(r)
       case None => Err("ValueError: could not convert string to float"))
    case VNone => Err("TypeError: float() argument must be a string or a real number")
    case VList(_) => Err("TypeError: float() argument must be a string or a real number")
  }

  /** pydantic's check for a `str` field: only strings are accepted. */
  function AsStr(v: Value): Result<string> {
    if v.VStr? then Ok(v.s) else Err("ValidationError: Input should be a valid string")
  }

  /** pydantic's check for an `Optional[str]` field. */
  function AsOptStr(v: Value): Result<Option<string>> {
    match v
    case VNone => Ok(None)
    case VStr(s) => Ok(Some(s))
    case _ => Err("ValidationError: Input should be a valid string")
  }

  /** pydantic's lax check for an `int` field: integers, booleans and integral floats. */
  function AsInt(v: Value): Result<int> {
    match v
    case VInt(i) => Ok(i)
    case VBool(b) => Ok(if b then 1 else 0)
    case VReal(r) => if r.Floor as real == r then Ok(r.Floor) else Err("ValidationError: Input should be a valid integer")
    case _ => Err("ValidationError: Input should be a valid integer")
  }

  predicate AllStrings(items: seq<Value>) {
    forall i :: 0 <= i < |items| ==> items[i].VStr?
  }

  /** pydantic's check for a `List[str]` field. */
  function AsStrList(v: Value): (r: Result<seq<string>>)
    ensures r.Ok? <==> v.VList? && AllStrings(v.items)
    ensures r.Ok? ==> |r.value| == |v.items| && forall i :: 0 <= i < |v.items| ==> v.items[i] == VStr(r.value[i])
  {
    if v.VList? && AllStrings(v.items) then Ok(seq(|v.items|, i requires 0 <= i < |v.items| && AllStrings(v.items) => v.items[i].s))
    else Err("ValidationError: Input should be a valid list of strings")
  }
}
